=== FILE: README.md ===
# Essence storefront core in Dafny

A model of the logic beneath the Essence e-commerce storefront, a React
client with an Express server:

- **Cart ledger** (`CartContext`). A list of cart lines that merges an add
  into an existing line when the (product id, size, colour) triple is
  already present. It supports remove, update-quantity and clear, and
  derives the subtotal, shipping, total and item count.
- **Catalogue pipeline** (`ProductContext`). A conjunction of optional filters:
  - category and subcategory;
  - minimum and maximum price;
  - size and colour membership;
  - a case-insensitive search of the name or description.

  An optional stable sort by price or name follows the filters. The context
  also offers lookup by id and the featured products.
- **Server product routes** (`server/routes/products.js`). The same pipeline
  driven by the query string, plus lookup by id, the distinct categories and
  the featured list.
- **Server order log** (`server/routes/orders.js`). An append-only list with a
  sequential id counter starting at 1. It validates that an order has items
  and looks orders up by id.
- **Checkout page** (`Checkout.jsx`). Builds the order request from the cart
  and the form, carrying only the last four UTF-16 code units of the card number.
  It clears the cart only on an ok reply, and drives a three-step wizard.

Modules, one per file:

| file | module | contents |
|---|---|---|
| `base.dfy` | `Base` | `Option`; `Keep`, the model of `Array.prototype.filter`; `Contains`, the model of `String.prototype.includes` |
| `sorting.dfy` | `Sorting` | a stable insertion sort over any total preorder, and a proof that a sorted, stable permutation is unique |
| `catalog.dfy` | `Catalog` | `Product`, `Filters`, the client pipeline and lookups |
| `product_routes.dfy` | `ProductRoutes` | the four product routes |
| `cart.dfy` | `Cart` | the cart ledger |
| `api.dfy` | `Api` | `Reply` and the order request record |
| `order_routes.dfy` | `OrderRoutes` | the order log and its three routes |
| `checkout.dfy` | `Checkout` | the request builder, reply handling and the step wizard |
| `storefront.dfy` | `Storefront` | the checkout round trip from page to server and back |

Modelling choices:

- **Prices** are `nat`. Price bounds are `Bound`:
  - `NoBound` is the empty field;
  - `Num(x)` is a parsed number;
  - `NaN` is an unparsable one. A non-numeric bound rejects every product,
    because `p.price >= NaN` is false (ProductContext.jsx:73, products.js:23).
- **Strings** are `string` wherever they are only compared, copied or
  searched. The card number is the one string the code slices by position,
  and it is a sequence of UTF-16 code units (`Api.Utf16`), as JavaScript's
  `length` and `slice` count them.
- **`localeCompare` and `toLowerCase`** are the two fields of a `Locale`,
  supplied from outside. The name sorts rely only on `localeCompare(a, b) <= 0`
  being a total preorder (`ValidLocale`).
- **`Array.prototype.sort`** is stable by section 23.1.3.30 of ECMA-262. Under a
  total preorder a sorted, stable permutation is unique
  (`Sorting.StableSortIsUnique`), so the insertion sort `Sorting.Sort` stands
  for the engine's algorithm.
- **A cart line** is written `{...product, selectedSize, selectedColor, quantity, cartItemId}`
  in the source. The model keeps the product as a nested snapshot (`CartLine.product`).
  The source compares `item.id`, which is `line.product.id` here.
- **Fresh cart ids** (`Date.now() + Math.random()`) and the server's two clock
  reads (`now`, `later`, in milliseconds) are parameters. Ids that `parseInt`
  reads from a URL are `Option<int>`, where `None` stands for NaN.
- **Replies** are `Api.Reply`:
  - `Ok(status, value)` for `res.json(...)` and `res.status(201).json(...)`;
  - `Fail(status, message)` for the 400 and 404 bodies.

## Model

| member | source | states |
|---|---|---|
| `Base.Keep` | client/src/context/ProductContext.jsx:64-94 | `filter` never lengthens the array; `Base.KeepMembers` and `Base.KeepAppend` fix which elements it keeps and in which order |
| `Base.KeepMembers` | client/src/context/ProductContext.jsx:64-94 | `filter` keeps an element exactly when it is in the array and passes, never more copies than the array holds |
| `Base.KeepAppend` | client/src/context/ProductContext.jsx:64-94 | `filter` distributes over concatenation, so it keeps the passing elements in their original order |
| `Base.Contains` | client/src/context/ProductContext.jsx:90-93 | `includes` holds for the empty needle and fails for a needle longer than the text; `Base.ContainsIffOccurs` ties it to the occurrence definition |
| `Base.ContainsIffOccurs` | client/src/context/ProductContext.jsx:90-93 | `includes` holds exactly when the needle occurs as a contiguous block at some position of the text |
| `Base.FirstIndex` | client/src/context/CartContext.jsx:34-39 | `findIndex` returns the position of the first element that passes, or -1 exactly when none passes |
| `Sorting.Sort` | client/src/context/ProductContext.jsx:97-114 | the sort returns a permutation of its input that is ordered by the comparator and keeps every group of equal-comparing elements in their input order |
| `Sorting.StableSortIsUnique` | client/src/context/ProductContext.jsx:97-114 | two sorted, stable arrangements of the same elements are identical, so the stable sort's result is fully determined by the comparator |
| `Sorting.SortIsTheStableSort` | client/src/context/ProductContext.jsx:97-114 | any sorted, stable permutation of the input is exactly what `Sort` returns |
| `Sorting.SortIdempotent` | client/src/context/ProductContext.jsx:97-114 | an already sorted list is left unchanged, so sorting twice by one key is sorting once |
| `Catalog.UpdateFilter` | client/src/context/ProductContext.jsx:119-121 | `updateFilter(name, v)` sets field `name` to `v` and leaves every other field of the filter record unchanged |
| `Catalog.StagesMeanFilters` | client/src/context/ProductContext.jsx:64-94 | a product passes every switched-on filter stage exactly when it meets every non-empty filter field |
| `Catalog.NarrowIsOnePass` | client/src/context/ProductContext.jsx:61-94 | running the stages one `filter` after another equals one `filter` by their conjunction |
| `Catalog.PipelineIsSelection` | client/src/context/ProductContext.jsx:61-94 | the filter stages select, in catalogue order, exactly the products that match the filter record |
| `Catalog.SearchKeepsMentions` | client/src/context/ProductContext.jsx:88-93 | the search stage keeps exactly the products whose lower-cased name or description contains the lower-cased query |
| `Catalog.ParseSort` | client/src/context/ProductContext.jsx:97-113 | each of the four recognised keys selects its own comparator; any other value, the empty one included, selects no sort |
| `Catalog.ComparatorIsTotalPreorder` | client/src/context/ProductContext.jsx:99-110 | all four comparators are total and transitive, given a consistent `localeCompare` |
| `Catalog.SortProducts` | client/src/context/ProductContext.jsx:96-114 | the sort step permutes its input; with no recognised key it changes nothing, and otherwise the result is sorted and stable for the key |
| `Catalog.ApplyFiltersAndSort` | client/src/context/ProductContext.jsx:60-117 | every visible product is in the catalogue and meets every non-empty filter (sound), every such product is visible (complete), and each is visible as often as in the catalogue; with no recognised sort key the visible list is the catalogue in order, restricted to the matches |
| `Catalog.VisibleIsStableSort` | client/src/context/ProductContext.jsx:96-114 | with a recognised key the visible list is the stable sort of the matching products by that key |
| `Catalog.PriceSortIsStable` | client/src/context/ProductContext.jsx:99-104 | `price-asc` gives non-decreasing prices and `price-desc` non-increasing ones, and the products of each price keep their filtered order |
| `Catalog.Visible` | client/src/context/ProductContext.jsx:37-40 | `filteredProducts` holds exactly the catalogue products that match the filters, each as often as in the catalogue |
| `Catalog.SortKeyKeepsSelection` | client/src/context/ProductContext.jsx:30 | `setSortBy` only reorders the visible list: the products shown, with their multiplicities, are the same for every sort key |
| `Catalog.ResetFilters` | client/src/context/ProductContext.jsx:123-134 | `resetFilters` empties every filter field, sets the sort key to the empty string, so that no sort is selected, and keeps the products |
| `Catalog.ResetShowsEverything` | client/src/context/ProductContext.jsx:123-134 | after `resetFilters` the visible list is the whole catalogue in its own order |
| `Catalog.ClearingFilterNeverHides` | client/src/context/ProductContext.jsx:64-94 | clearing any single filter field keeps every product that was visible, at least as many times |
| `Catalog.FindProduct` | client/src/context/ProductContext.jsx:136-138 | `getProductById` finds a product exactly when some product has the parsed id, and then it is the first such product |
| `Catalog.GetProductById` | client/src/context/ProductContext.jsx:136-138 | `getProductById` returns a catalogue product with the parsed id, and nothing exactly when the id does not parse or no product has it |
| `Catalog.FeaturedProducts` | client/src/context/ProductContext.jsx:140-142 | `getFeaturedProducts` holds exactly the featured products of the catalogue |
| `Catalog.FeaturedInCatalogueOrder` | client/src/context/ProductContext.jsx:141 | the featured list is taken in catalogue order: it distributes over concatenation and keeps a product exactly when it is featured |
| `ProductRoutes.QueryIsFilterRecord` | server/routes/products.js:12-46 | the route's stages are those of the client's filter record built from the query, and the route's filter is the client's |
| `ProductRoutes.ListProducts` | server/routes/products.js:6-69 | every product returned meets every supplied query parameter and every such product is returned, as often as in the catalogue; an unrecognised or missing `sort` keeps catalogue order, and `price-asc` gives non-decreasing prices |
| `ProductRoutes.ServerMatchesClient` | server/routes/products.js:9-66 | for the same filters and sort key the route returns exactly the client's visible list |
| `ProductRoutes.GetProduct` | server/routes/products.js:72-80 | `GET /:id` returns the first product with that id, or a 404 "Product not found" when there is none or the id does not parse |
| `ProductRoutes.LookupsAgree` | server/routes/products.js:73 | the route's lookup and the client's `getProductById` find the same product, whatever filters and sort key the client holds |
| `ProductRoutes.FirstInCategory` | server/routes/products.js:84 | the position of a category's first occurrence in the catalogue |
| `ProductRoutes.FeaturedRouteAgrees` | server/routes/products.js:89-92 | `/meta/featured` replies with `getFeaturedProducts`' list: it distributes over concatenation of the catalogue and keeps a single product exactly when it is featured, so each featured product appears once per catalogue occurrence, in catalogue order |
| `ProductRoutes.Categories` | server/routes/products.js:83-86 | the reply is a 200 whose list names every product category exactly once, nothing else, in order of first occurrence |
| `ProductRoutes.FeaturedRoute` | server/routes/products.js:89-92 | `/meta/featured` replies 200 with exactly the featured products |
| `Cart.FindLine` | client/src/context/CartContext.jsx:34-39 | the index of the first line with the (id, size, colour) triple, or -1 when none has it |
| `Cart.AddToCart` | client/src/context/CartContext.jsx:31-56 | a triple already present has its first line's quantity raised by the requested amount, with the line count and every other line unchanged; a new triple is appended as exactly one line carrying size, colour, quantity and the fresh id |
| `Cart.RemoveFromCart` | client/src/context/CartContext.jsx:66-69 | the result holds only lines with another id, keeps every line with another id, and an unknown id leaves the cart unchanged |
| `Cart.SetQuantity` | client/src/context/CartContext.jsx:75-81 | the `map` gives the line with that id the new quantity and copies every other line |
| `Cart.UpdateQuantity` | client/src/context/CartContext.jsx:72-82 | a quantity below 1 changes nothing; otherwise only the quantity of the lines with that id changes |
| `Cart.ClearCart` | client/src/context/CartContext.jsx:85-88 | the cart becomes empty |
| `Cart.Subtotal` | client/src/context/CartContext.jsx:91 | a single line contributes price times quantity, non-negative quantities give a non-negative subtotal, and `Cart.SumsAppend` makes it the sum over the lines |
| `Cart.ItemCount` | client/src/context/CartContext.jsx:94 | a single line contributes its quantity, non-negative quantities give a non-negative count, and `Cart.SumsAppend` makes it the sum over the lines |
| `Cart.Shipping` | client/src/context/CartContext.jsx:92 | shipping is 0 or the flat 830, and it is 0 exactly when the subtotal is 0 or above 8300 |
| `Cart.CartTotals` | client/src/context/CartContext.jsx:91-94 | the subtotal and item count are the sums over the lines, shipping is 0 exactly when the subtotal is 0 or below or above 8300, the total is subtotal plus shipping, and an empty cart has every value 0 |
| `Cart.Total` | client/src/context/CartContext.jsx:92-93 | the total equals the subtotal exactly when shipping is waived, and is the subtotal plus 830 otherwise |
| `Cart.ShippingBoundaries` | client/src/context/CartContext.jsx:92 | the rule at its edges: 0 is free, 1 and 8300 pay the fee, 8301 is free |
| `Cart.SumsAppend` | client/src/context/CartContext.jsx:91-94 | both `reduce` sums split over concatenation |
| `Cart.SumsReplace` | client/src/context/CartContext.jsx:91-94 | replacing a line changes each sum by that line's difference |
| `Cart.ItemCountAtLeastLines` | client/src/context/CartContext.jsx:91-94 | in a valid cart the item count is at least the number of lines and the subtotal is not negative |
| `Cart.ClearCartTotals` | client/src/context/CartContext.jsx:85-94 | after `clearCart` the ledger is valid and subtotal, shipping, total and item count are all 0 |
| `Cart.AddPreservesValid` | client/src/context/CartContext.jsx:31-56 | adding keeps quantities at least 1, triples distinct and ids distinct |
| `Cart.AddTotals` | client/src/context/CartContext.jsx:31-56 | adding raises the item count by the quantity and the subtotal by the line's price times the quantity |
| `Cart.AddTwiceMerges` | client/src/context/CartContext.jsx:34-54 | adding the same new triple twice leaves one line at the end whose quantity is the sum of both requests |
| `Cart.RemoveDropsLine` | client/src/context/CartContext.jsx:67 | removing a held id drops exactly its line and keeps the others in order |
| `Cart.RemoveTotals` | client/src/context/CartContext.jsx:66-69 | removal keeps the ledger valid and takes the line's items and amount out of the sums |
| `Cart.RemovePreservesValid` | client/src/context/CartContext.jsx:67 | removing any id keeps the ledger valid |
| `Cart.UpdatePreservesValid` | client/src/context/CartContext.jsx:72-82 | updating keeps triples and ids intact and never stores a quantity below 1 |
| `Cart.UpdateTotals` | client/src/context/CartContext.jsx:75-81 | setting a held line to a quantity of at least 1 moves the item count and subtotal by the difference |
| `OrderRoutes.CreateOrder` | server/routes/orders.js:9-29 | missing or empty `items` gets a 400 "Order must contain at least one item" with log and counter unchanged; otherwise the order takes the counter as id, copies the request's fields, is `confirmed`, and is appended as exactly one order with the counter advanced by 1; its order date is the first clock read and its delivery date exactly one week (604800000 ms) after the second |
| `OrderRoutes.GetOrder` | server/routes/orders.js:32-40 | `GET /:id` returns the first order with that id, or a 404 "Order not found" |
| `OrderRoutes.ListOrders` | server/routes/orders.js:43-45 | `GET /` replies 200 with the whole log, in the order the orders were accepted |
| `OrderRoutes.FirstOrderIsOne` | server/routes/orders.js:5-17 | the server starts well-formed with an empty listing, and the first accepted order gets id 1 |
| `OrderRoutes.CreatePreservesWellFormed` | server/routes/orders.js:9-29 | every create keeps the log's ids at 1..n in order and the counter at n + 1 |
| `OrderRoutes.StoredIdsResolve` | server/routes/orders.js:32-40 | in a well-formed log id k resolves exactly when 1 <= k <= n, and then to the k-th order |
| `OrderRoutes.GetAfterCreate` | server/routes/orders.js:16-40 | after an accepted create, `GET /:id` with the returned id yields the stored order |
| `OrderRoutes.ListAfterCreate` | server/routes/orders.js:27-44 | the listing is the log in insertion order: a create appends the accepted order and a rejected one changes nothing |
| `Checkout.CardLast4` | client/src/pages/Checkout.jsx:63 | `slice(-4)` is the last min(4, n) UTF-16 code units of the card number |
| `Checkout.BuildPayload` | client/src/pages/Checkout.jsx:49-66 | the request carries the cart's lines, the cart total, the nine shipping fields unchanged and only `cardLast4` as payment |
| `Checkout.PayloadIgnoresCardSecrets` | client/src/pages/Checkout.jsx:62-64 | card name, expiry, CVV and every code unit of the card number but the last four never influence the request |
| `Checkout.HandleOutcome` | client/src/pages/Checkout.jsx:76-84 | an ok response clears the cart and moves to the returned order; a non-ok response or an error leaves the cart unchanged |
| `Checkout.ClearedOnlyOnSuccess` | client/src/pages/Checkout.jsx:76-84 | a non-empty cart ends up empty exactly when the response was ok |
| `Checkout.Buttons` | client/src/pages/Checkout.jsx:209-304 | every step button shown moves to an adjacent step within 1..3 |
| `Checkout.Press` | client/src/pages/Checkout.jsx:211-304 | pressing a shown button leaves the step in 1..3, a step button sets the step to its own target, one away from the current step, and "Place Order" is only pressable at step 3 |
| `Checkout.Moves` | client/src/pages/Checkout.jsx:211-299 | the only moves are 1 to 2, 2 to 1, 2 to 3 and 3 to 2 |
| `Checkout.PlaceOrderOnlyAtReview` | client/src/pages/Checkout.jsx:282-304 | "Place Order" is shown at step 3 and nowhere else |
| `Checkout.StepsStayInRange` | client/src/pages/Checkout.jsx:29-304 | from a step in 1..3 any sequence of shown-button presses stays in 1..3, and every "Place Order" press happens at step 3 |
| `Checkout.ReachingReviewPassesThree` | client/src/pages/Checkout.jsx:270-276 | from any step other than review, every press sequence that ends at the review step includes "Review Order" |
| `Checkout.PlaceOrderNeedsReview` | client/src/pages/Checkout.jsx:29-304 | from the first step, `useState(1)`, every "Place Order" press comes at position 2 or later, after "Continue to Payment" as the first press and after a "Review Order" press |
| `Checkout.PressablePrefix` | client/src/pages/Checkout.jsx:29-304 | a prefix of a pressable sequence of button presses is pressable |
| `Storefront.SubmitOrder` | client/src/pages/Checkout.jsx:45-85 | one submission leaves the cart either empty or unchanged |
| `Storefront.CheckoutRoundTrip` | server/routes/orders.js:9-40 | checking out a non-empty cart stores its lines and total under the next id, `confirmed`, with the shipping fields and only the card number's last four UTF-16 code units; the cart is cleared and `GET /:id` returns that order |
| `Storefront.EmptyCartIsRefused` | server/routes/orders.js:12-14 | the server's guard: an empty cart from any client is refused and nothing is stored; the checkout page itself never posts one, since it renders nothing for an empty cart (Checkout.jsx:87-89) |

## Left out

- **Rendering, routing and navigation.** JSX markup, `navigate(...)` and the
  redirect to `/shop` on an empty cart (Checkout.jsx:31-36) are not modelled.
- **Persistence.** The `localStorage` load and save of the cart
  (CartContext.jsx:18-28) are browser I/O and are not modelled. The source has
  no recovery from a corrupt stored cart.
- **Network plumbing.** `fetch`, the loading and error flags and `alert` are
  not modelled. The order reply reaches the page as a `SubmitOutcome`.
  `fetchProducts` is not modelled. It replaces only `products`, and filters
  may already be set when the products arrive, for example from a shop URL's
  query. The lemmas about `Catalog.CatalogState` therefore hold for any
  filters and sort key.
- **Number parsing.** `parseFloat` and `parseInt` are not modelled. Price bounds
  arrive as `Bound` and ids as `Option<int>`. Fractional prices in the catalogue
  data are not modelled, because prices are `nat`.
- **Locale behaviour.** Real `localeCompare` collation and Unicode `toLowerCase`
  are supplied as the opaque functions of `Locale`. Client and server are
  assumed to use the same one.
- **Server input shapes.** The server accepts any JSON body and any query
  string. The model types them:
  - `items` is either missing or a list of cart lines;
  - repeated query parameters, which Express turns into arrays, are not modelled.
- **Timestamps.** `toISOString` formatting is not modelled; times are integer
  milliseconds.
- **Cart side effects.** The `isCartOpen` toggle and `showNotification` logging
  are not modelled.
- **In-place merge.** The mutation in the merge branch of `addToCart`
  (CartContext.jsx:44) is not modelled, nor its effect under repeated
  invocation; add is a pure update.
- **Currency formatting** (`currency.js`) is floating point and locale
  formatting, and is not modelled.
- **Caller preconditions.** `Cart.AddToCart` takes `quantity >= 1` as a
  precondition because its callers guarantee it: ProductDetail.jsx:120 clamps
  with `Math.max(1, …)` and ProductCard.jsx:18 passes 1. It also requires the
  fresh id to be unused, which `Date.now() + Math.random()` makes overwhelmingly
  likely but does not guarantee.

=== FILE: api.dfy ===
/** The records exchanged between the storefront and its server: the HTTP
    reply of a route and the order request the checkout sends. */
module Api {
  import opened Base
  import opened Cart

  /** A route's reply: a status with a JSON value, or an error status with
      the `message` field of its JSON body. */
  datatype Reply<T> = Ok(status: int, value: T) | Fail(status: int, message: string)

  /** The nine shipping fields of the order request. */
  datatype ShippingInfo = ShippingInfo(
    firstName: string,
    lastName: string,
    email: string,
    phone: string,
    address: string,
    city: string,
    state: string,
    zipCode: string,
    country: string)

  /** A UTF-16 code unit. JavaScript strings are sequences of these, and
      `length` and `slice` count them; a character outside the Basic
      Multilingual Plane takes two. */
  newtype CodeUnit = x: int | 0 <= x < 0x1_0000

  /** A JavaScript string as its code units, used where positions matter. */
  type Utf16 = seq<CodeUnit>

  /** The only card data the order request carries. */
  datatype PaymentInfo = PaymentInfo(cardLast4: Utf16)

  /** The body of `POST /api/orders`; `items` is `None` when the field is
      missing from the request. */
  datatype OrderPayload = OrderPayload(
    items: Option<seq<CartLine>>,
    shippingInfo: ShippingInfo,
    paymentInfo: PaymentInfo,
    total: int)
}

=== FILE: base.dfy ===
/** Shared wrappers and sequence utilities: the few JavaScript library
    operations the storefront relies on (`Array.prototype.filter`,
    `String.prototype.includes`), stated once and used by every module. */
module Base {

  /** A value that may be absent: a missing query parameter, a lookup that
      found nothing, or a number `parseInt` could not read (NaN). */
  datatype Option<+T> = None | Some(value: T)

  /** The elements of `s` satisfying `keep`, in their original order: the
      model of `s.filter(keep)`, which never lengthens `s`. */
  function Keep<T>(s: seq<T>, keep: T -> bool): (r: seq<T>)
    ensures |r| <= |s|
  {
    if |s| == 0 then []
    else (if keep(s[0]) then [s[0]] else []) + Keep(s[1..], keep)
  }

  /** `Keep` keeps exactly the elements that pass, never more copies of an
      element than `s` holds, and never lengthens `s`. */
  lemma KeepMembers<T>(s: seq<T>, keep: T -> bool)
    ensures |Keep(s, keep)| <= |s|
    ensures multiset(Keep(s, keep)) <= multiset(s)
    ensures forall i :: 0 <= i < |Keep(s, keep)| ==> Keep(s, keep)[i] in s && keep(Keep(s, keep)[i])
    ensures forall i :: 0 <= i < |s| && keep(s[i]) ==> s[i] in Keep(s, keep)
    ensures forall x :: x in Keep(s, keep) <==> x in s && keep(x)
  {
    var r := Keep(s, keep);
    KeepCounts(s, keep);
    KeepPasses(s, keep);
    forall i | 0 <= i < |r| ensures r[i] in s && keep(r[i]) {
      assert r[i] in r;
    }
    forall i | 0 <= i < |s| && keep(s[i]) ensures s[i] in r {
      assert s[i] in s;
    }
  }

  /** `Keep` never lengthens `s` nor adds copies of an element. */
  lemma {:induction false} KeepCounts<T>(s: seq<T>, keep: T -> bool)
    ensures |Keep(s, keep)| <= |s|
    ensures multiset(Keep(s, keep)) <= multiset(s)
  {
    if |s| > 0 {
      var h := if keep(s[0]) then [s[0]] else [];
      KeepCounts(s[1..], keep);
      assert Keep(s, keep) == h + Keep(s[1..], keep);
      assert s == [s[0]] + s[1..];
      assert multiset(s) == multiset{s[0]} + multiset(s[1..]);
    }
  }

  /** An element is kept exactly when it occurs in `s` and passes. */
  lemma {:induction false} KeepPasses<T>(s: seq<T>, keep: T -> bool)
    ensures forall x :: x in Keep(s, keep) <==> x in s && keep(x)
  {
    if |s| > 0 {
      var h := if keep(s[0]) then [s[0]] else [];
      var t := Keep(s[1..], keep);
      KeepPasses(s[1..], keep);
      assert Keep(s, keep) == h + t;
      forall x ensures x in Keep(s, keep) <==> x in s && keep(x) {
        assert x in h + t <==> x in h || x in t;
        assert x in s <==> x == s[0] || x in s[1..];
      }
    }
  }

  /** Filtering distributes over concatenation; with `KeepSingleton` this
      pins `Keep` down as the order-preserving selection. */
  lemma {:induction false} KeepAppend<T>(a: seq<T>, b: seq<T>, keep: T -> bool)
    ensures Keep(a + b, keep) == Keep(a, keep) + Keep(b, keep)
  {
    if |a| == 0 {
      assert a + b == b;
    } else {
      var h := if keep(a[0]) then [a[0]] else [];
      assert (a + b)[0] == a[0];
      assert (a + b)[1..] == a[1..] + b;
      assert Keep(a + b, keep) == h + Keep(a[1..] + b, keep);
      KeepAppend(a[1..], b, keep);
      assert Keep(a, keep) == h + Keep(a[1..], keep);
      assert h + (Keep(a[1..], keep) + Keep(b, keep)) == (h + Keep(a[1..], keep)) + Keep(b, keep);
    }
  }

  lemma KeepSingleton<T>(x: T, keep: T -> bool)
    ensures Keep([x], keep) == if keep(x) then [x] else []
  {
  }

  /** Prepending one element: the unfolding step most proofs need. */
  lemma KeepCons<T>(x: T, s: seq<T>, keep: T -> bool)
    ensures Keep([x] + s, keep) == (if keep(x) then [x] else []) + Keep(s, keep)
  {
  }

  /** A filter that every element passes changes nothing. */
  lemma {:induction false} KeepAll<T>(s: seq<T>, keep: T -> bool)
    requires forall i :: 0 <= i < |s| ==> keep(s[i])
    ensures Keep(s, keep) == s
  {
    if |s| > 0 {
      KeepAll(s[1..], keep);
      assert s == [s[0]] + s[1..];
    }
  }

  /** A filter that rejects exactly the element at `k` removes just it. */
  lemma KeepDropsOne<T>(s: seq<T>, k: int, keep: T -> bool)
    requires 0 <= k < |s| && !keep(s[k])
    requires forall j :: 0 <= j < |s| && j != k ==> keep(s[j])
    ensures Keep(s, keep) == s[..k] + s[k + 1..]
  {
    var head, tail := s[..k], s[k + 1..];
    forall i | 0 <= i < |head| ensures keep(head[i]) {
      assert head[i] == s[i];
    }
    KeepAll(head, keep);
    forall i | 0 <= i < |tail| ensures keep(tail[i]) {
      assert tail[i] == s[k + 1 + i];
    }
    KeepAll(tail, keep);
    KeepSingleton(s[k], keep);
    KeepAppend(head, [s[k]], keep);
    assert Keep(head + [s[k]], keep) == head + [];
    assert head + [] == head;
    KeepAppend(head + [s[k]], tail, keep);
    SplitAt(s, k);
  }

  /** A sequence is its prefix, the element at `k` and its suffix. */
  lemma SplitAt<T>(s: seq<T>, k: int)
    requires 0 <= k < |s|
    ensures s == s[..k] + [s[k]] + s[k + 1..]
  {
  }

  /** Two filters that agree on the elements of `s` select the same elements. */
  lemma {:induction false} KeepSame<T>(s: seq<T>, p: T -> bool, q: T -> bool)
    requires forall x :: x in s ==> p(x) == q(x)
    ensures Keep(s, p) == Keep(s, q)
  {
    if |s| > 0 {
      assert s[0] in s;
      forall x | x in s[1..] ensures p(x) == q(x) {
        assert x in s;
      }
      KeepSame(s[1..], p, q);
    }
  }

  /** Filtering twice is filtering once by the conjunction. */
  lemma {:induction false} KeepKeep<T>(s: seq<T>, p: T -> bool, q: T -> bool, both: T -> bool)
    requires forall x :: both(x) == (p(x) && q(x))
    ensures Keep(Keep(s, p), q) == Keep(s, both)
  {
    if |s| > 0 {
      KeepKeep(s[1..], p, q, both);
      var head := if p(s[0]) then [s[0]] else [];
      KeepAppend(head, Keep(s[1..], p), q);
      if p(s[0]) {
        KeepSingleton(s[0], q);
      }
    }
  }

  /** A weaker filter keeps at least as many copies of every element. */
  lemma {:induction false} KeepWeaker<T>(s: seq<T>, p: T -> bool, q: T -> bool)
    requires forall x :: p(x) ==> q(x)
    ensures multiset(Keep(s, p)) <= multiset(Keep(s, q))
  {
    if |s| > 0 {
      KeepWeaker(s[1..], p, q);
    }
  }

  /** `hay` starts with `prefix`. */
  predicate StartsWith(hay: string, prefix: string) {
    |prefix| <= |hay| && hay[..|prefix|] == prefix
  }

  /** `needle` occurs in `hay` at position `i`. */
  predicate OccursAt(hay: string, needle: string, i: int) {
    0 <= i && i + |needle| <= |hay| && hay[i..i + |needle|] == needle
  }

  /** The model of `hay.includes(needle)`: `needle` occurs somewhere in
      `hay` as a contiguous block. */
  predicate Contains(hay: string, needle: string)
    ensures |needle| == 0 ==> Contains(hay, needle)
    ensures Contains(hay, needle) ==> |needle| <= |hay|
    decreases |hay|
  {
    StartsWith(hay, needle) || (|hay| > 0 && Contains(hay[1..], needle))
  }

  /** `Contains` finds exactly the occurrences of `needle` in `hay`. */
  lemma {:induction false} ContainsIffOccurs(hay: string, needle: string)
    ensures Contains(hay, needle) <==> exists i :: OccursAt(hay, needle, i)
    decreases |hay|
  {
    assert OccursAt(hay, needle, 0) == StartsWith(hay, needle);
    if |hay| > 0 {
      ContainsIffOccurs(hay[1..], needle);
      forall i | 1 <= i
        ensures OccursAt(hay, needle, i) == OccursAt(hay[1..], needle, i - 1)
      {
        if i + |needle| <= |hay| {
          assert hay[1..][i - 1..i - 1 + |needle|] == hay[i..i + |needle|];
        }
      }
      if Contains(hay[1..], needle) {
        var i :| OccursAt(hay[1..], needle, i);
        assert OccursAt(hay, needle, i + 1);
      }
    }
  }

  /** The model of `findIndex(p)`: the position of the first element
      satisfying `p`, or -1 when there is none (`find` returns the element
      at that position, or nothing). */
  function FirstIndex<T>(s: seq<T>, p: T -> bool): (k: int)
    ensures -1 <= k < |s|
    ensures k >= 0 ==> p(s[k]) && forall j :: 0 <= j < k ==> !p(s[j])
    ensures k == -1 ==> forall j :: 0 <= j < |s| ==> !p(s[j])
  {
    if |s| == 0 then -1
    else if p(s[0]) then 0
    else
      var k := FirstIndex(s[1..], p);
      if k == -1 then -1 else k + 1
  }
}

=== FILE: cart.dfy ===
/** The cart ledger (`CartContext`): line items merged by (product id,
    size, colour), the four mutations, and the derived subtotal, shipping,
    total and item count. */
module Cart {
  import opened Base
  import opened Catalog

  /** Subtotals strictly above this ship free. */
  const FreeShippingThreshold: nat := 8300

  /** The flat fee charged on a non-empty cart at or below the threshold. */
  const FlatShippingFee: nat := 830

  /** A line: a snapshot of the product plus the chosen size and colour, a
      quantity and a locally unique `cartItemId`. */
  datatype CartLine = CartLine(
    product: Product,
    selectedSize: string,
    selectedColor: string,
    quantity: int,
    cartItemId: int)

  /** The line is for this (product id, size, colour) triple. */
  predicate SameItem(line: CartLine, productId: int, size: string, color: string) {
    line.product.id == productId && line.selectedSize == size && line.selectedColor == color
  }

  /** The ledger's invariant: every quantity is at least 1, no two lines
      share a triple, and no two lines share a `cartItemId`. */
  predicate ValidCart(cart: seq<CartLine>) {
    && (forall i :: 0 <= i < |cart| ==> cart[i].quantity >= 1)
    && (forall i, j :: 0 <= i < j < |cart| ==>
          !SameItem(cart[j], cart[i].product.id, cart[i].selectedSize, cart[i].selectedColor))
    && (forall i, j :: 0 <= i < j < |cart| ==> cart[i].cartItemId != cart[j].cartItemId)
  }

  /** No line carries `id`. */
  predicate FreshId(cart: seq<CartLine>, id: int) {
    forall i :: 0 <= i < |cart| ==> cart[i].cartItemId != id
  }

  /** `findIndex` on the triple: the first matching line, or -1. */
  function FindLine(cart: seq<CartLine>, productId: int, size: string, color: string): (k: int)
    ensures -1 <= k < |cart|
    ensures k >= 0 ==> (SameItem(cart[k], productId, size, color)
      && forall j :: 0 <= j < k ==> !SameItem(cart[j], productId, size, color))
    ensures k == -1 ==> forall j :: 0 <= j < |cart| ==> !SameItem(cart[j], productId, size, color)
  {
    FirstIndex(cart, (line: CartLine) => SameItem(line, productId, size, color))
  }

  /** `addToCart`: a triple already in the cart has its line's quantity
      raised by `quantity`, with nothing else changed; a new triple is
      appended as one line carrying the fresh id. Callers pass a quantity
      of at least 1 and the id is one no line holds. */
  function AddToCart(cart: seq<CartLine>, product: Product, size: string, color: string,
                     quantity: int, freshId: int): (r: seq<CartLine>)
    requires quantity >= 1
    requires FreshId(cart, freshId)
    ensures var k := FindLine(cart, product.id, size, color);
      && (k >= 0 ==>
            && |r| == |cart|
            && r[k].quantity == cart[k].quantity + quantity
            && r[k].(quantity := cart[k].quantity) == cart[k]
            && forall j :: 0 <= j < |cart| && j != k ==> r[j] == cart[j])
      && (k == -1 ==> r == cart + [CartLine(product, size, color, quantity, freshId)])
  {
    var k := FindLine(cart, product.id, size, color);
    if k > -1 then cart[k := cart[k].(quantity := cart[k].quantity + quantity)]
    else cart + [CartLine(product, size, color, quantity, freshId)]
  }

  function OtherId(cartItemId: int): CartLine -> bool {
    (line: CartLine) => line.cartItemId != cartItemId
  }

  /** `removeFromCart`: keeps, in order, the lines whose id differs. */
  function RemoveFromCart(cart: seq<CartLine>, cartItemId: int): (r: seq<CartLine>)
    ensures forall i :: 0 <= i < |r| ==> r[i].cartItemId != cartItemId && r[i] in cart
    ensures forall i :: 0 <= i < |cart| && cart[i].cartItemId != cartItemId ==> cart[i] in r
    ensures FreshId(cart, cartItemId) ==> r == cart
  {
    KeepMembers(cart, OtherId(cartItemId));
    if FreshId(cart, cartItemId) then
      KeepAll(cart, OtherId(cartItemId));
      Keep(cart, OtherId(cartItemId))
    else
      Keep(cart, OtherId(cartItemId))
  }

  /** The `map` of `updateQuantity`: the line with that id takes the new
      quantity, all others are copied. */
  function SetQuantity(cart: seq<CartLine>, cartItemId: int, newQuantity: int): (r: seq<CartLine>)
    ensures |r| == |cart|
    ensures forall i :: 0 <= i < |cart| ==>
      r[i] == if cart[i].cartItemId == cartItemId then cart[i].(quantity := newQuantity) else cart[i]
  {
    if |cart| == 0 then []
    else
      var line := if cart[0].cartItemId == cartItemId then cart[0].(quantity := newQuantity) else cart[0];
      [line] + SetQuantity(cart[1..], cartItemId, newQuantity)
  }

  /** `updateQuantity`: a quantity below 1 is rejected and the cart is
      unchanged; otherwise only the quantity of the line with that id
      changes. */
  function UpdateQuantity(cart: seq<CartLine>, cartItemId: int, newQuantity: int): (r: seq<CartLine>)
    ensures newQuantity < 1 ==> r == cart
    ensures |r| == |cart|
    ensures forall i :: 0 <= i < |cart| ==> r[i].(quantity := cart[i].quantity) == cart[i]
    ensures forall i :: 0 <= i < |cart| ==>
      r[i].quantity == if cart[i].cartItemId == cartItemId && newQuantity >= 1 then newQuantity else cart[i].quantity
  {
    if newQuantity < 1 then cart else SetQuantity(cart, cartItemId, newQuantity)
  }

  /** `clearCart`. */
  function ClearCart(): (r: seq<CartLine>)
    ensures |r| == 0
  {
    []
  }

  /** What one line adds to the subtotal. */
  function LineAmount(line: CartLine): int {
    line.product.price * line.quantity
  }

  /** `subtotal`: the sum of price times quantity over the lines. A single
      line contributes its amount, and lines of non-negative quantity never
      make the sum negative; `SumsAppend` makes it additive over the lines. */
  function Subtotal(cart: seq<CartLine>): (r: int)
    ensures |cart| == 1 ==> r == LineAmount(cart[0])
    ensures (forall i :: 0 <= i < |cart| ==> cart[i].quantity >= 0) ==> r >= 0
  {
    if |cart| == 0 then 0 else LineAmount(cart[0]) + Subtotal(cart[1..])
  }

  /** `itemCount`: the sum of the quantities. A single line contributes its
      quantity, and non-negative quantities never make the count negative;
      `SumsAppend` makes it additive over the lines. */
  function ItemCount(cart: seq<CartLine>): (r: int)
    ensures |cart| == 1 ==> r == cart[0].quantity
    ensures (forall i :: 0 <= i < |cart| ==> cart[i].quantity >= 0) ==> r >= 0
  {
    if |cart| == 0 then 0 else cart[0].quantity + ItemCount(cart[1..])
  }

  /** `shipping`: free for an empty cart and for a subtotal above the
      threshold, the flat fee otherwise. */
  function Shipping(subtotal: int): (r: nat)
    ensures r == 0 || r == FlatShippingFee
    ensures r == 0 <==> subtotal <= 0 || subtotal > FreeShippingThreshold
  {
    if subtotal > 0 then (if subtotal > FreeShippingThreshold then 0 else FlatShippingFee) else 0
  }

  /** The derived values shown with the cart. */
  datatype Totals = Totals(subtotal: int, shipping: int, total: int, itemCount: int)

  /** The derived values of a cart: the subtotal and item count are the
      sums over its lines, and the total is the subtotal plus a shipping
      charge that is waived exactly for an empty subtotal or one above the
      threshold. */
  function CartTotals(cart: seq<CartLine>): (t: Totals)
    ensures t.subtotal == Subtotal(cart) && t.itemCount == ItemCount(cart)
    ensures t.shipping == 0 <==> t.subtotal <= 0 || t.subtotal > FreeShippingThreshold
    ensures t.total == t.subtotal + t.shipping
    ensures t.total - t.subtotal in {0, FlatShippingFee}
    ensures |cart| == 0 ==> t == Totals(0, 0, 0, 0)
  {
    var subtotal := Subtotal(cart);
    var shipping := Shipping(subtotal);
    Totals(subtotal, shipping, subtotal + shipping, ItemCount(cart))
  }

  /** `total`: the subtotal itself when shipping is waived, that is for an
      empty subtotal or one above the threshold, and the subtotal plus the
      flat fee otherwise. */
  function Total(cart: seq<CartLine>): (r: int)
    ensures r == Subtotal(cart) <==> Subtotal(cart) <= 0 || Subtotal(cart) > FreeShippingThreshold
    ensures r != Subtotal(cart) ==> r == Subtotal(cart) + FlatShippingFee
  {
    CartTotals(cart).total
  }

  /** The boundary cases of the shipping rule. */
  lemma ShippingBoundaries()
    ensures Shipping(0) == 0
    ensures Shipping(1) == FlatShippingFee
    ensures Shipping(FreeShippingThreshold) == FlatShippingFee
    ensures Shipping(FreeShippingThreshold + 1) == 0
  {
  }

  /** Both sums split over concatenation. */
  lemma {:induction false} SumsAppend(a: seq<CartLine>, b: seq<CartLine>)
    ensures Subtotal(a + b) == Subtotal(a) + Subtotal(b)
    ensures ItemCount(a + b) == ItemCount(a) + ItemCount(b)
  {
    if |a| == 0 {
      assert a + b == b;
    } else {
      assert (a + b)[0] == a[0] && (a + b)[1..] == a[1..] + b;
      SumsAppend(a[1..], b);
    }
  }

  lemma Distributes(a: int, b: int, c: int)
    ensures a * (b + c) == a * b + a * c
  {
  }

  /** Replacing one line changes each sum by that line's difference. */
  lemma SumsReplace(cart: seq<CartLine>, k: int, line: CartLine)
    requires 0 <= k < |cart|
    ensures Subtotal(cart[k := line]) == Subtotal(cart) - LineAmount(cart[k]) + LineAmount(line)
    ensures ItemCount(cart[k := line]) == ItemCount(cart) - cart[k].quantity + line.quantity
  {
    var head, tail := cart[..k], cart[k + 1..];
    SplitAt(cart, k);
    SplitAt(cart[k := line], k);
    assert cart[k := line][..k] == head && cart[k := line][k + 1..] == tail;
    SumsAppend(head + [cart[k]], tail);
    SumsAppend(head, [cart[k]]);
    SumsAppend(head + [line], tail);
    SumsAppend(head, [line]);
    assert Subtotal([cart[k]]) == LineAmount(cart[k]) && ItemCount([cart[k]]) == cart[k].quantity;
    assert Subtotal([line]) == LineAmount(line) && ItemCount([line]) == line.quantity;
  }

  /** With every quantity at least 1, there are at least as many items as
      lines, and no price is negative, so neither is the subtotal. */
  lemma {:induction false} ItemCountAtLeastLines(cart: seq<CartLine>)
    requires ValidCart(cart)
    ensures ItemCount(cart) >= |cart|
    ensures Subtotal(cart) >= 0
  {
    if |cart| > 0 {
      ItemCountAtLeastLines(cart[1..]);
    }
  }

  /** Clearing the cart zeroes every derived value. */
  lemma ClearCartTotals()
    ensures ValidCart(ClearCart())
    ensures CartTotals(ClearCart()) == Totals(0, 0, 0, 0)
  {
  }

  /** `addToCart` keeps the ledger's invariant. */
  lemma AddPreservesValid(cart: seq<CartLine>, product: Product, size: string, color: string,
                          quantity: int, freshId: int)
    requires ValidCart(cart) && quantity >= 1 && FreshId(cart, freshId)
    ensures ValidCart(AddToCart(cart, product, size, color, quantity, freshId))
  {
    var k := FindLine(cart, product.id, size, color);
    var r := AddToCart(cart, product, size, color, quantity, freshId);
    if k == -1 {
      assert r == cart + [CartLine(product, size, color, quantity, freshId)];
    } else {
      assert forall j :: 0 <= j < |cart| ==> r[j].(quantity := cart[j].quantity) == cart[j];
    }
  }

  /** `addToCart` adds `quantity` items, and the price of the merged or new
      line times `quantity` to the subtotal. */
  lemma AddTotals(cart: seq<CartLine>, product: Product, size: string, color: string,
                  quantity: int, freshId: int)
    requires quantity >= 1 && FreshId(cart, freshId)
    ensures var r := AddToCart(cart, product, size, color, quantity, freshId);
      var k := FindLine(cart, product.id, size, color);
      var price := if k >= 0 then cart[k].product.price else product.price;
      && ItemCount(r) == ItemCount(cart) + quantity
      && Subtotal(r) == Subtotal(cart) + price * quantity
  {
    var k := FindLine(cart, product.id, size, color);
    var r := AddToCart(cart, product, size, color, quantity, freshId);
    if k >= 0 {
      var merged := cart[k].(quantity := cart[k].quantity + quantity);
      assert r == cart[k := merged];
      MergeTotals(cart, k, quantity);
    } else {
      var line := CartLine(product, size, color, quantity, freshId);
      assert r == cart + [line];
      SumsAppend(cart, [line]);
    }
  }

  /** Raising the quantity of line `k` raises the item count by the same
      amount and the subtotal by that line's price times it. */
  lemma MergeTotals(cart: seq<CartLine>, k: int, quantity: int)
    requires 0 <= k < |cart|
    ensures var merged := cart[k].(quantity := cart[k].quantity + quantity);
      && ItemCount(cart[k := merged]) == ItemCount(cart) + quantity
      && Subtotal(cart[k := merged]) == Subtotal(cart) + cart[k].product.price * quantity
  {
    var merged := cart[k].(quantity := cart[k].quantity + quantity);
    SumsReplace(cart, k, merged);
    Distributes(cart[k].product.price, cart[k].quantity, quantity);
  }

  /** Adding the same new triple twice yields one line, appended at the end,
      whose quantity is the sum of both requests. */
  lemma AddTwiceMerges(cart: seq<CartLine>, product: Product, size: string, color: string,
                       q1: int, q2: int, id1: int, id2: int)
    requires ValidCart(cart) && q1 >= 1 && q2 >= 1 && FreshId(cart, id1)
    requires FindLine(cart, product.id, size, color) == -1
    requires id2 != id1 && FreshId(cart, id2)
    ensures var once := AddToCart(cart, product, size, color, q1, id1);
      var twice := AddToCart(once, product, size, color, q2, id2);
      && |twice| == |cart| + 1
      && twice[..|cart|] == cart
      && twice[|cart|] == CartLine(product, size, color, q1 + q2, id1)
      && forall i :: 0 <= i < |twice| && SameItem(twice[i], product.id, size, color) ==> i == |cart|
  {
    var once := AddToCart(cart, product, size, color, q1, id1);
    assert once == cart + [CartLine(product, size, color, q1, id1)];
    assert FreshId(once, id2);
    assert SameItem(once[|cart|], product.id, size, color);
    assert forall j :: 0 <= j < |cart| ==> once[j] == cart[j];
    assert FindLine(once, product.id, size, color) == |cart|;
  }

  /** Removing a held id drops exactly that line and keeps the others in
      their order. */
  lemma RemoveDropsLine(cart: seq<CartLine>, k: int)
    requires ValidCart(cart) && 0 <= k < |cart|
    ensures RemoveFromCart(cart, cart[k].cartItemId) == cart[..k] + cart[k + 1..]
  {
    var p := OtherId(cart[k].cartItemId);
    assert forall j :: 0 <= j < |cart| && j != k ==> p(cart[j]);
    KeepDropsOne(cart, k, p);
  }

  /** Removal keeps the invariant and takes the removed line's items and
      amount out of the sums. */
  lemma RemoveTotals(cart: seq<CartLine>, k: int)
    requires ValidCart(cart) && 0 <= k < |cart|
    ensures var r := RemoveFromCart(cart, cart[k].cartItemId);
      && ValidCart(r)
      && ItemCount(r) == ItemCount(cart) - cart[k].quantity
      && Subtotal(r) == Subtotal(cart) - LineAmount(cart[k])
  {
    RemoveDropsLine(cart, k);
    SumsDrop(cart, k);
    DropLineValid(cart, k);
  }

  lemma SumsDrop(cart: seq<CartLine>, k: int)
    requires 0 <= k < |cart|
    ensures Subtotal(cart[..k] + cart[k + 1..]) == Subtotal(cart) - LineAmount(cart[k])
    ensures ItemCount(cart[..k] + cart[k + 1..]) == ItemCount(cart) - cart[k].quantity
  {
    var head, tail := cart[..k], cart[k + 1..];
    SplitAt(cart, k);
    SumsAppend(head + [cart[k]], tail);
    SumsAppend(head, [cart[k]]);
    SumsAppend(head, tail);
    assert Subtotal([cart[k]]) == LineAmount(cart[k]) && ItemCount([cart[k]]) == cart[k].quantity;
  }

  lemma DropLineValid(cart: seq<CartLine>, k: int)
    requires ValidCart(cart) && 0 <= k < |cart|
    ensures ValidCart(cart[..k] + cart[k + 1..])
  {
  }

  /** Removing any id, held or not, keeps the invariant. */
  lemma RemovePreservesValid(cart: seq<CartLine>, cartItemId: int)
    requires ValidCart(cart)
    ensures ValidCart(RemoveFromCart(cart, cartItemId))
  {
    if !FreshId(cart, cartItemId) {
      var k :| 0 <= k < |cart| && cart[k].cartItemId == cartItemId;
      RemoveTotals(cart, k);
    }
  }

  /** `updateQuantity` keeps the invariant: the triples and ids are
      untouched and a quantity below 1 is never stored. */
  lemma UpdatePreservesValid(cart: seq<CartLine>, cartItemId: int, newQuantity: int)
    requires ValidCart(cart)
    ensures ValidCart(UpdateQuantity(cart, cartItemId, newQuantity))
  {
    var r := UpdateQuantity(cart, cartItemId, newQuantity);
    assert forall i :: 0 <= i < |cart| ==>
      r[i].product == cart[i].product && r[i].selectedSize == cart[i].selectedSize
      && r[i].selectedColor == cart[i].selectedColor && r[i].cartItemId == cart[i].cartItemId;
  }

  /** Setting a held line to `newQuantity >= 1` moves the item count by the
      difference. */
  lemma UpdateTotals(cart: seq<CartLine>, k: int, newQuantity: int)
    requires ValidCart(cart) && 0 <= k < |cart| && newQuantity >= 1
    ensures var r := UpdateQuantity(cart, cart[k].cartItemId, newQuantity);
      && ItemCount(r) == ItemCount(cart) - cart[k].quantity + newQuantity
      && Subtotal(r) == Subtotal(cart) - LineAmount(cart[k]) + cart[k].product.price * newQuantity
  {
    var r := UpdateQuantity(cart, cart[k].cartItemId, newQuantity);
    assert r == cart[k := cart[k].(quantity := newQuantity)];
    SumsReplace(cart, k, cart[k].(quantity := newQuantity));
  }
}

=== FILE: catalog.dfy ===
/** The browser-side catalogue engine (`ProductContext`): the product list,
    the filter record, the sort key, and the visible list recomputed from
    them; plus the lookups by id and the featured list. */
module Catalog {
  import opened Base
  import opened Sorting

  /** A catalogue entry. Prices are whole currency units. */
  datatype Product = Product(
    id: int,
    name: string,
    description: string,
    price: nat,
    category: string,
    subcategory: string,
    sizes: seq<string>,
    colors: seq<string>,
    images: seq<string>,
    inStock: bool,
    featured: bool)

  /** A price filter as the pipeline sees it: `NoBound` is the empty
      string (no constraint); a non-empty value goes through `parseFloat`,
      giving a number or NaN, and NaN compares false with every price. */
  datatype Bound = NoBound | Num(value: real) | NaN

  /** The two string operations the JavaScript runtime supplies:
      `lower` is `toLowerCase`, and `collate(a, b)` is
      `a.localeCompare(b) <= 0`. */
  datatype Locale = Locale(lower: string -> string, collate: (string, string) -> bool)

  /** `localeCompare` is a consistent comparator. */
  ghost predicate ValidLocale(loc: Locale) {
    TotalPreorder(loc.collate)
  }

  /** The filter record; the empty string (or `NoBound`) means "no
      constraint" for that field. */
  datatype Filters = Filters(
    category: string,
    subcategory: string,
    minPrice: Bound,
    maxPrice: Bound,
    size: string,
    color: string,
    search: string)

  /** The initial filter record, also restored by `resetFilters`. */
  const NoFilters := Filters("", "", NoBound, NoBound, "", "", "")

  datatype FilterField = Category | Subcategory | MinPrice | MaxPrice | Size | Color | Search

  datatype FilterValue = Text(text: string) | Price(bound: Bound)

  /** The value of one named field of the filter record. */
  function FieldOf(f: Filters, name: FilterField): FilterValue {
    match name
    case Category => Text(f.category)
    case Subcategory => Text(f.subcategory)
    case MinPrice => Price(f.minPrice)
    case MaxPrice => Price(f.maxPrice)
    case Size => Text(f.size)
    case Color => Text(f.color)
    case Search => Text(f.search)
  }

  /** The "no constraint" value of a field. */
  function EmptyValue(name: FilterField): FilterValue {
    if name == MinPrice || name == MaxPrice then Price(NoBound) else Text("")
  }

  /** An `updateFilter(name, value)` call: one named field and its new
      value, typed by the field. */
  datatype FilterUpdate =
    | SetCategory(category: string)
    | SetSubcategory(subcategory: string)
    | SetMinPrice(minPrice: Bound)
    | SetMaxPrice(maxPrice: Bound)
    | SetSize(size: string)
    | SetColor(color: string)
    | SetSearch(search: string)
  {
    function Field(): FilterField {
      match this
      case SetCategory(_) => Category
      case SetSubcategory(_) => Subcategory
      case SetMinPrice(_) => MinPrice
      case SetMaxPrice(_) => MaxPrice
      case SetSize(_) => Size
      case SetColor(_) => Color
      case SetSearch(_) => Search
    }

    function Value(): FilterValue {
      match this
      case SetCategory(v) => Text(v)
      case SetSubcategory(v) => Text(v)
      case SetMinPrice(b) => Price(b)
      case SetMaxPrice(b) => Price(b)
      case SetSize(v) => Text(v)
      case SetColor(v) => Text(v)
      case SetSearch(v) => Text(v)
    }
  }

  /** `updateFilter`: the named field takes the new value and every other
      field keeps its value. */
  function UpdateFilter(f: Filters, u: FilterUpdate): (r: Filters)
    ensures FieldOf(r, u.Field()) == u.Value()
    ensures forall g :: g != u.Field() ==> FieldOf(r, g) == FieldOf(f, g)
  {
    match u
    case SetCategory(v) => f.(category := v)
    case SetSubcategory(v) => f.(subcategory := v)
    case SetMinPrice(b) => f.(minPrice := b)
    case SetMaxPrice(b) => f.(maxPrice := b)
    case SetSize(v) => f.(size := v)
    case SetColor(v) => f.(color := v)
    case SetSearch(v) => f.(search := v)
  }

  /** The update that clears one field. */
  function Cleared(name: FilterField): (u: FilterUpdate)
    ensures u.Field() == name && u.Value() == EmptyValue(name)
  {
    match name
    case Category => SetCategory("")
    case Subcategory => SetSubcategory("")
    case MinPrice => SetMinPrice(NoBound)
    case MaxPrice => SetMaxPrice(NoBound)
    case Size => SetSize("")
    case Color => SetColor("")
    case Search => SetSearch("")
  }

  /** Case-insensitive search: the lower-cased `text` includes the
      lower-cased `query`. */
  predicate Mentions(text: string, query: string, loc: Locale) {
    Contains(loc.lower(text), loc.lower(query))
  }

  /** The reference definition of the filter: a product passes when it meets
      every field that is set. */
  predicate MatchesFilters(p: Product, f: Filters, loc: Locale) {
    && (f.category != "" ==> p.category == f.category)
    && (f.subcategory != "" ==> p.subcategory == f.subcategory)
    && (f.minPrice != NoBound ==> f.minPrice.Num? && p.price as real >= f.minPrice.value)
    && (f.maxPrice != NoBound ==> f.maxPrice.Num? && p.price as real <= f.maxPrice.value)
    && (f.size != "" ==> f.size in p.sizes)
    && (f.color != "" ==> f.color in p.colors)
    && (f.search != "" ==> Mentions(p.name, f.search, loc) || Mentions(p.description, f.search, loc))
  }

  function MatchesFn(f: Filters, loc: Locale): Product -> bool {
    p => MatchesFilters(p, f, loc)
  }

  /** One `result = result.filter(...)` stage of the pipeline. */
  datatype Constraint =
    | InCategory(category: string)
    | InSubcategory(subcategory: string)
    | PriceAtLeast(min: Bound)
    | PriceAtMost(max: Bound)
    | HasSize(size: string)
    | HasColor(color: string)
    | MentionedBy(query: string)

  /** The stage's test. A price bound that is NaN rejects every product. */
  predicate Satisfies(p: Product, c: Constraint, loc: Locale) {
    match c
    case InCategory(x) => p.category == x
    case InSubcategory(x) => p.subcategory == x
    case PriceAtLeast(b) => b.Num? && p.price as real >= b.value
    case PriceAtMost(b) => b.Num? && p.price as real <= b.value
    case HasSize(x) => x in p.sizes
    case HasColor(x) => x in p.colors
    case MentionedBy(q) => Mentions(p.name, q, loc) || Mentions(p.description, q, loc)
  }

  function SatisfiesFn(c: Constraint, loc: Locale): Product -> bool {
    p => Satisfies(p, c, loc)
  }

  /** `p` passes every stage in `cs`. */
  predicate PassesAll(p: Product, cs: seq<Constraint>, loc: Locale)
    decreases |cs|
  {
    |cs| == 0 || (Satisfies(p, cs[0], loc) && PassesAll(p, cs[1..], loc))
  }

  function AllFn(cs: seq<Constraint>, loc: Locale): Product -> bool {
    p => PassesAll(p, cs, loc)
  }

  /** One filtering stage. */
  function FilterBy(s: seq<Product>, c: Constraint, loc: Locale): seq<Product> {
    Keep(s, SatisfiesFn(c, loc))
  }

  /** Runs the stages in order, each filtering the previous result. */
  function Narrow(s: seq<Product>, cs: seq<Constraint>, loc: Locale): seq<Product>
    decreases |cs|
  {
    if |cs| == 0 then s else Narrow(FilterBy(s, cs[0], loc), cs[1..], loc)
  }

  /** The stage `c` in front of `rest` when `on`, otherwise just `rest`. */
  function Then(on: bool, c: Constraint, rest: seq<Constraint>): seq<Constraint> {
    if on then [c] + rest else rest
  }

  /** The stages a filter record switches on, in the fixed order category,
      subcategory, min price, max price, size, colour, search. */
  function Stages(f: Filters): seq<Constraint> {
    Then(f.category != "", InCategory(f.category),
    Then(f.subcategory != "", InSubcategory(f.subcategory),
    Then(f.minPrice != NoBound, PriceAtLeast(f.minPrice),
    Then(f.maxPrice != NoBound, PriceAtMost(f.maxPrice),
    DetailStages(f)))))
  }

  lemma PassesThen(p: Product, on: bool, c: Constraint, rest: seq<Constraint>, loc: Locale)
    ensures PassesAll(p, Then(on, c, rest), loc) <==> (on ==> Satisfies(p, c, loc)) && PassesAll(p, rest, loc)
  {
  }

  /** The last three stages: size, colour and search. */
  function DetailStages(f: Filters): seq<Constraint> {
    Then(f.size != "", HasSize(f.size),
    Then(f.color != "", HasColor(f.color),
    Then(f.search != "", MentionedBy(f.search), [])))
  }

  lemma DetailStagesMean(p: Product, f: Filters, loc: Locale)
    ensures PassesAll(p, DetailStages(f), loc) <==>
      && (f.size != "" ==> f.size in p.sizes)
      && (f.color != "" ==> f.color in p.colors)
      && (f.search != "" ==> Mentions(p.name, f.search, loc) || Mentions(p.description, f.search, loc))
  {
    var t7 := Then(f.search != "", MentionedBy(f.search), []);
    var t6 := Then(f.color != "", HasColor(f.color), t7);
    PassesThen(p, f.search != "", MentionedBy(f.search), [], loc);
    PassesThen(p, f.color != "", HasColor(f.color), t7, loc);
    PassesThen(p, f.size != "", HasSize(f.size), t6, loc);
  }

  /** A product passes every switched-on stage exactly when it matches the
      filter record. */
  lemma StagesMeanFilters(p: Product, f: Filters, loc: Locale)
    ensures PassesAll(p, Stages(f), loc) <==> MatchesFilters(p, f, loc)
  {
    var t5 := DetailStages(f);
    var t4 := Then(f.maxPrice != NoBound, PriceAtMost(f.maxPrice), t5);
    var t3 := Then(f.minPrice != NoBound, PriceAtLeast(f.minPrice), t4);
    var t2 := Then(f.subcategory != "", InSubcategory(f.subcategory), t3);
    DetailStagesMean(p, f, loc);
    PassesThen(p, f.maxPrice != NoBound, PriceAtMost(f.maxPrice), t5, loc);
    PassesThen(p, f.minPrice != NoBound, PriceAtLeast(f.minPrice), t4, loc);
    PassesThen(p, f.subcategory != "", InSubcategory(f.subcategory), t3, loc);
    PassesThen(p, f.category != "", InCategory(f.category), t2, loc);
    assert Stages(f) == Then(f.category != "", InCategory(f.category), t2);
  }

  /** Filtering stage after stage is one pass keeping the products that
      pass all stages. */
  lemma {:induction false} NarrowIsOnePass(s: seq<Product>, cs: seq<Constraint>, loc: Locale)
    ensures Narrow(s, cs, loc) == Keep(s, AllFn(cs, loc))
    decreases |cs|
  {
    if |cs| == 0 {
      KeepAll(s, AllFn(cs, loc));
    } else {
      NarrowIsOnePass(FilterBy(s, cs[0], loc), cs[1..], loc);
      assert forall x :: AllFn(cs, loc)(x) == (SatisfiesFn(cs[0], loc)(x) && AllFn(cs[1..], loc)(x));
      KeepKeep(s, SatisfiesFn(cs[0], loc), AllFn(cs[1..], loc), AllFn(cs, loc));
    }
  }

  /** The staged pipeline selects, in catalogue order, exactly the products
      matching the filter record. */
  lemma PipelineIsSelection(s: seq<Product>, f: Filters, loc: Locale)
    ensures Narrow(s, Stages(f), loc) == Keep(s, MatchesFn(f, loc))
  {
    NarrowIsOnePass(s, Stages(f), loc);
    forall x | x in s ensures AllFn(Stages(f), loc)(x) == MatchesFn(f, loc)(x) {
      StagesMeanFilters(x, f, loc);
    }
    KeepSame(s, AllFn(Stages(f), loc), MatchesFn(f, loc));
  }

  /** The search stage keeps exactly the products whose lower-cased name or
      description contains the lower-cased query somewhere. */
  lemma SearchKeepsMentions(s: seq<Product>, query: string, loc: Locale)
    ensures forall p :: p in FilterBy(s, MentionedBy(query), loc) <==>
      p in s && ((exists i :: OccursAt(loc.lower(p.name), loc.lower(query), i))
                 || (exists i :: OccursAt(loc.lower(p.description), loc.lower(query), i)))
  {
    var r := FilterBy(s, MentionedBy(query), loc);
    KeepMembers(s, SatisfiesFn(MentionedBy(query), loc));
    forall p ensures p in r <==> p in s && Satisfies(p, MentionedBy(query), loc) {
      if p in r {
        var i :| 0 <= i < |r| && r[i] == p;
      }
      if p in s && Satisfies(p, MentionedBy(query), loc) {
        var i :| 0 <= i < |s| && s[i] == p;
      }
    }
    forall p: Product
      ensures Satisfies(p, MentionedBy(query), loc) <==>
        (exists i :: OccursAt(loc.lower(p.name), loc.lower(query), i))
        || (exists i :: OccursAt(loc.lower(p.description), loc.lower(query), i))
    {
      ContainsIffOccurs(loc.lower(p.name), loc.lower(query));
      ContainsIffOccurs(loc.lower(p.description), loc.lower(query));
    }
  }

  /** The recognised values of the sort key. */
  datatype SortKey = PriceAsc | PriceDesc | NameAsc | NameDesc

  /** The `switch (sortBy)`: the empty string and unrecognised values select
      no sort. */
  function ParseSort(sortBy: string): (r: Option<SortKey>)
    ensures r == Some(PriceAsc) <==> sortBy == "price-asc"
    ensures r == Some(PriceDesc) <==> sortBy == "price-desc"
    ensures r == Some(NameAsc) <==> sortBy == "name-asc"
    ensures r == Some(NameDesc) <==> sortBy == "name-desc"
  {
    if sortBy == "price-asc" then Some(PriceAsc)
    else if sortBy == "price-desc" then Some(PriceDesc)
    else if sortBy == "name-asc" then Some(NameAsc)
    else if sortBy == "name-desc" then Some(NameDesc)
    else None
  }

  /** The comparator of each key, as "may come before": `a.price - b.price
      <= 0`, `b.price - a.price <= 0`, `a.name.localeCompare(b.name) <= 0`,
      `b.name.localeCompare(a.name) <= 0`. */
  function Comparator(key: SortKey, loc: Locale): (Product, Product) -> bool {
    match key
    case PriceAsc => (a: Product, b: Product) => a.price <= b.price
    case PriceDesc => (a: Product, b: Product) => b.price <= a.price
    case NameAsc => (a: Product, b: Product) => loc.collate(a.name, b.name)
    case NameDesc => (a: Product, b: Product) => loc.collate(b.name, a.name)
  }

  /** Every comparator the catalogue uses is consistent. */
  lemma ComparatorIsTotalPreorder(key: SortKey, loc: Locale)
    requires ValidLocale(loc)
    ensures TotalPreorder(Comparator(key, loc))
  {
    var le := Comparator(key, loc);
    forall a, b ensures Comparable(le, a, b) {
      if key.NameAsc? || key.NameDesc? {
        assert Comparable(loc.collate, a.name, b.name);
      }
    }
    forall a, b, c ensures Chains(le, a, b, c) {
      if key.NameAsc? {
        assert Chains(loc.collate, a.name, b.name, c.name);
      } else if key.NameDesc? {
        assert Chains(loc.collate, c.name, b.name, a.name);
      }
    }
  }

  /** The sort step: a stable sort by the key's comparator, or nothing. */
  function SortProducts(s: seq<Product>, sortBy: string, loc: Locale): (r: seq<Product>)
    requires ValidLocale(loc)
    ensures multiset(r) == multiset(s)
    ensures ParseSort(sortBy).None? ==> r == s
    ensures ParseSort(sortBy).Some? ==>
      && Sorted(r, Comparator(ParseSort(sortBy).value, loc))
      && Stable(r, s, Comparator(ParseSort(sortBy).value, loc))
  {
    match ParseSort(sortBy)
    case None => s
    case Some(key) =>
      ComparatorIsTotalPreorder(key, loc);
      Sort(s, Comparator(key, loc))
  }

  /** `applyFiltersAndSort`: the visible list holds exactly the products of
      the catalogue that match the filters (sound and complete), each as
      often as in the catalogue; with no recognised sort key it is the
      catalogue in its own order restricted to those products. */
  function ApplyFiltersAndSort(products: seq<Product>, f: Filters, sortBy: string, loc: Locale): (r: seq<Product>)
    requires ValidLocale(loc)
    ensures multiset(r) == multiset(Keep(products, MatchesFn(f, loc)))
    ensures forall i :: 0 <= i < |r| ==> r[i] in products && MatchesFilters(r[i], f, loc)
    ensures forall i :: 0 <= i < |products| && MatchesFilters(products[i], f, loc) ==> products[i] in r
    ensures ParseSort(sortBy).None? ==> r == Keep(products, MatchesFn(f, loc))
  {
    PipelineIsSelection(products, f, loc);
    var r := SortProducts(Narrow(products, Stages(f), loc), sortBy, loc);
    SelectionMembers(products, r, f, loc);
    r
  }

  lemma SelectionMembers(products: seq<Product>, r: seq<Product>, f: Filters, loc: Locale)
    requires multiset(r) == multiset(Keep(products, MatchesFn(f, loc)))
    ensures forall i :: 0 <= i < |r| ==> r[i] in products && MatchesFilters(r[i], f, loc)
    ensures forall i :: 0 <= i < |products| && MatchesFilters(products[i], f, loc) ==> products[i] in r
  {
    var kept := Keep(products, MatchesFn(f, loc));
    KeepMembers(products, MatchesFn(f, loc));
    forall i | 0 <= i < |r| ensures r[i] in products && MatchesFilters(r[i], f, loc) {
      assert r[i] in multiset(r);
      assert r[i] in kept;
    }
    forall i | 0 <= i < |products| && MatchesFilters(products[i], f, loc) ensures products[i] in r {
      assert products[i] in kept;
      assert products[i] in multiset(kept);
    }
  }

  /** With a recognised sort key the visible list is the stable sort of the
      matching products by that key: sorted, with every group of equal
      keys in catalogue order. */
  lemma VisibleIsStableSort(products: seq<Product>, f: Filters, sortBy: string, loc: Locale)
    requires ValidLocale(loc) && ParseSort(sortBy).Some?
    ensures var le := Comparator(ParseSort(sortBy).value, loc);
      var r := ApplyFiltersAndSort(products, f, sortBy, loc);
      var kept := Keep(products, MatchesFn(f, loc));
      && Sorted(r, le) && Stable(r, kept, le)
      && TotalPreorder(le) && r == Sort(kept, le)
  {
    PipelineIsSelection(products, f, loc);
    ComparatorIsTotalPreorder(ParseSort(sortBy).value, loc);
  }

  /** The products of `s` priced `c`, in their order in `s`. */
  function WithPrice(s: seq<Product>, c: nat): seq<Product> {
    Keep(s, (p: Product) => p.price == c)
  }

  /** Under a price comparator, the products tied with `k` are those with
      `k`'s price. */
  lemma PriceTies(s: seq<Product>, key: SortKey, loc: Locale, k: Product)
    requires key == PriceAsc || key == PriceDesc
    ensures Ties(s, Comparator(key, loc), k) == WithPrice(s, k.price)
  {
    KeepSame(s, TiedWith(Comparator(key, loc), k), (p: Product) => p.price == k.price);
  }

  /** A product with the given price, used to name a group of ties. */
  function PricedAt(c: nat): Product {
    Product(0, "", "", c, "", "", [], [], [], false, false)
  }

  /** Sorting by a price key orders the list by price and keeps the products
      of each price in the order they had before the sort. */
  lemma PriceSortIsStable(s: seq<Product>, key: SortKey, loc: Locale)
    requires ValidLocale(loc)
    requires key == PriceAsc || key == PriceDesc
    ensures var r := Sort(s, Comparator(key, loc));
      && (key == PriceAsc ==> forall i, j :: 0 <= i < j < |r| ==> r[i].price <= r[j].price)
      && (key == PriceDesc ==> forall i, j :: 0 <= i < j < |r| ==> r[i].price >= r[j].price)
      && forall c: nat :: WithPrice(r, c) == WithPrice(s, c)
  {
    ComparatorIsTotalPreorder(key, loc);
    var le := Comparator(key, loc);
    var r := Sort(s, le);
    forall i, j | 0 <= i < j < |r| ensures le(r[i], r[j]) { }
    forall c: nat ensures WithPrice(r, c) == WithPrice(s, c) {
      PriceTies(r, key, loc, PricedAt(c));
      PriceTies(s, key, loc, PricedAt(c));
      assert Ties(r, le, PricedAt(c)) == Ties(s, le, PricedAt(c));
    }
  }

  /** The client-side catalogue state: the fetched products, the filter
      record and the sort key. */
  datatype CatalogState = CatalogState(products: seq<Product>, filters: Filters, sortBy: string)

  /** `filteredProducts`, recomputed whenever the products, the filters or
      the sort key change: a product is visible exactly when it is in the
      catalogue and matches the filters, as often as in the catalogue. */
  function Visible(st: CatalogState, loc: Locale): (r: seq<Product>)
    requires ValidLocale(loc)
    ensures forall p :: p in r <==> p in st.products && MatchesFilters(p, st.filters, loc)
    ensures multiset(r) == multiset(Keep(st.products, MatchesFn(st.filters, loc)))
  {
    ApplyFiltersAndSort(st.products, st.filters, st.sortBy, loc)
  }

  function WithUpdate(st: CatalogState, u: FilterUpdate): CatalogState {
    st.(filters := UpdateFilter(st.filters, u))
  }

  /** `setSortBy`. */
  function WithSortBy(st: CatalogState, sortBy: string): CatalogState {
    st.(sortBy := sortBy)
  }

  /** Changing the sort key only reorders the visible list: the products
      shown, each as often as before, do not depend on it. */
  lemma SortKeyKeepsSelection(st: CatalogState, sortBy: string, loc: Locale)
    requires ValidLocale(loc)
    ensures multiset(Visible(WithSortBy(st, sortBy), loc)) == multiset(Visible(st, loc))
  {
  }

  /** `resetFilters`: every filter field is empty again and no sort key is
      selected; the products are kept. */
  function ResetFilters(st: CatalogState): (r: CatalogState)
    ensures r.products == st.products
    ensures forall name :: FieldOf(r.filters, name) == EmptyValue(name)
    ensures r.sortBy == "" && ParseSort(r.sortBy).None?
  {
    st.(filters := NoFilters, sortBy := "")
  }

  /** After `resetFilters` the visible list is the whole catalogue, in order. */
  lemma ResetShowsEverything(st: CatalogState, loc: Locale)
    requires ValidLocale(loc)
    ensures Visible(ResetFilters(st), loc) == st.products
  {
  }

  /** Clearing any one filter field never hides a product: every product
      visible before is visible after, at least as many times. */
  lemma ClearingFilterNeverHides(st: CatalogState, name: FilterField, loc: Locale)
    requires ValidLocale(loc)
    ensures multiset(Visible(st, loc)) <= multiset(Visible(WithUpdate(st, Cleared(name)), loc))
  {
    var f := st.filters;
    var g := UpdateFilter(f, Cleared(name));
    forall p ensures MatchesFilters(p, f, loc) ==> MatchesFilters(p, g, loc) {
      assert forall h :: h != name ==> FieldOf(g, h) == FieldOf(f, h);
      assert FieldOf(g, name) == EmptyValue(name);
    }
    KeepWeaker(st.products, MatchesFn(f, loc), MatchesFn(g, loc));
  }

  function HasId(id: int): Product -> bool {
    (p: Product) => p.id == id
  }

  /** `find(p => p.id === id)`: the first product with that id; none when no
      product has it or the id did not parse. */
  function FindProduct(products: seq<Product>, id: Option<int>): (r: Option<Product>)
    ensures r.Some? <==> id.Some? && exists i :: 0 <= i < |products| && products[i].id == id.value
    ensures r.Some? ==> exists i :: (0 <= i < |products| && products[i] == r.value
      && r.value.id == id.value && forall j :: 0 <= j < i ==> products[j].id != id.value)
  {
    if id.None? then None
    else
      var k := FirstIndex(products, HasId(id.value));
      if k < 0 then None else Some(products[k])
  }

  /** `getProductById`: a product of the catalogue with the parsed id, and
      none exactly when the id did not parse or no product has it. */
  function GetProductById(st: CatalogState, id: Option<int>): (r: Option<Product>)
    ensures r.Some? ==> id.Some? && r.value in st.products && r.value.id == id.value
    ensures r.None? <==> id.None? || forall i :: 0 <= i < |st.products| ==> st.products[i].id != id.value
  {
    FindProduct(st.products, id)
  }

  function IsFeatured(p: Product): bool {
    p.featured
  }

  /** `getFeaturedProducts`: exactly the featured products, each as often as
      in the catalogue. */
  function FeaturedProducts(products: seq<Product>): (r: seq<Product>)
    ensures forall i :: 0 <= i < |r| ==> r[i].featured && r[i] in products
    ensures forall i :: 0 <= i < |products| && products[i].featured ==> products[i] in r
  {
    KeepMembers(products, IsFeatured);
    Keep(products, IsFeatured)
  }

  /** The featured list is built in catalogue order: it distributes over
      concatenation, keeping a single product exactly when it is featured. */
  lemma FeaturedInCatalogueOrder(a: seq<Product>, b: seq<Product>, p: Product)
    ensures FeaturedProducts(a + b) == FeaturedProducts(a) + FeaturedProducts(b)
    ensures FeaturedProducts([p]) == if p.featured then [p] else []
  {
    KeepAppend(a, b, IsFeatured);
    KeepSingleton(p, IsFeatured);
  }
}

=== FILE: checkout.dfy ===
/** The checkout page (`Checkout.jsx`): the order request built from the
    cart and the form, what a reply does to the cart, and the three-step
    wizard that leads to the "Place Order" button. */
module Checkout {
  import opened Base
  import opened Cart
  import opened Api

  /** The form's thirteen fields: nine for shipping, four for the card. The
      card number is kept as UTF-16 code units because the request carries
      a slice of it. */
  datatype CheckoutForm = CheckoutForm(
    firstName: string,
    lastName: string,
    email: string,
    phone: string,
    address: string,
    city: string,
    state: string,
    zipCode: string,
    country: string,
    cardNumber: Utf16,
    cardName: string,
    expiryDate: string,
    cvv: string)

  /** `cardNumber.slice(-4)`: the last four code units, or the whole number
      when it is shorter. */
  function CardLast4(cardNumber: Utf16): (r: Utf16)
    ensures |r| == if |cardNumber| < 4 then |cardNumber| else 4
    ensures cardNumber == cardNumber[..|cardNumber| - |r|] + r
  {
    if |cardNumber| <= 4 then cardNumber else cardNumber[|cardNumber| - 4..]
  }

  /** The nine shipping fields, copied from the form. */
  function ShippingOf(form: CheckoutForm): ShippingInfo {
    ShippingInfo(form.firstName, form.lastName, form.email, form.phone, form.address,
                 form.city, form.state, form.zipCode, form.country)
  }

  /** The order request of `handleSubmitOrder`: the cart's lines, the
      shipping fields, the card number's last four code units and the cart total. */
  function BuildPayload(cart: seq<CartLine>, form: CheckoutForm): (o: OrderPayload)
    ensures o.items == Some(cart)
    ensures o.total == Total(cart)
    ensures o.paymentInfo == PaymentInfo(CardLast4(form.cardNumber))
    ensures o.shippingInfo.firstName == form.firstName && o.shippingInfo.lastName == form.lastName
    ensures o.shippingInfo.email == form.email && o.shippingInfo.phone == form.phone
    ensures o.shippingInfo.address == form.address && o.shippingInfo.city == form.city
    ensures o.shippingInfo.state == form.state && o.shippingInfo.zipCode == form.zipCode
    ensures o.shippingInfo.country == form.country
  {
    OrderPayload(Some(cart), ShippingOf(form), PaymentInfo(CardLast4(form.cardNumber)), Total(cart))
  }

  /** The card's name, expiry date and CVV, and every code unit of the card
      number but the last four, never reach the request: two forms that
      agree on the shipping fields and on those four code units yield the
      same request. */
  lemma PayloadIgnoresCardSecrets(cart: seq<CartLine>, f: CheckoutForm, g: CheckoutForm)
    requires ShippingOf(f) == ShippingOf(g)
    requires CardLast4(f.cardNumber) == CardLast4(g.cardNumber)
    ensures BuildPayload(cart, f) == BuildPayload(cart, g)
  {
  }

  /** What the request's `fetch` came back with: a response with its status
      and the `id` of the order in its body, or a thrown error. */
  datatype SubmitOutcome = Responded(status: int, orderId: int) | NetworkError

  /** `response.ok`: a 2xx status. */
  predicate IsOkOutcome(outcome: SubmitOutcome) {
    outcome.Responded? && 200 <= outcome.status < 300
  }

  /** The cart after submitting, and the order the page moves on to, if any. */
  datatype SubmitResult = SubmitResult(cart: seq<CartLine>, confirmation: Option<int>)

  /** The reply handling of `handleSubmitOrder`: an ok response clears the
      cart and moves to the confirmation of the returned order; any other
      response, or an error, leaves the cart as it was and stays. */
  function HandleOutcome(cart: seq<CartLine>, outcome: SubmitOutcome): (r: SubmitResult)
    ensures IsOkOutcome(outcome) ==> r.cart == [] && r.confirmation == Some(outcome.orderId)
    ensures !IsOkOutcome(outcome) ==> r.cart == cart && r.confirmation.None?
  {
    match outcome
    case Responded(status, orderId) =>
      if 200 <= status < 300 then SubmitResult(ClearCart(), Some(orderId)) else SubmitResult(cart, None)
    case NetworkError => SubmitResult(cart, None)
  }

  /** The cart is emptied only by an ok response: whenever a non-empty cart
      ends up empty, the response was ok. */
  lemma ClearedOnlyOnSuccess(cart: seq<CartLine>, outcome: SubmitOutcome)
    requires |cart| > 0
    ensures HandleOutcome(cart, outcome).cart == [] <==> IsOkOutcome(outcome)
  {
  }

  /** The wizard's first step, `useState(1)`: 1 is shipping, 2 payment and
      3 review. */
  const FirstStep: int := 1

  /** A button the wizard shows: one that sets the step, or the form's
      submit button. */
  datatype StepButton = GoTo(target: int) | PlaceOrder

  /** The buttons shown at each step of the wizard, which starts at step 1
      (shipping) and goes on to 2 (payment) and 3 (review): "Continue to
      Payment" at 1, "Back" and "Review Order" at 2, "Back" and "Place Order"
      at 3. */
  function Buttons(step: int): (r: seq<StepButton>)
    ensures forall b :: b in r && b.GoTo? ==> b.target in {1, 2, 3} && (b.target == step + 1 || b.target == step - 1)
  {
    if step == 1 then [GoTo(2)]
    else if step == 2 then [GoTo(1), GoTo(3)]
    else if step == 3 then [GoTo(2), PlaceOrder]
    else []
  }

  /** Pressing a shown button: a step button sets the step, "Place Order"
      submits the form and leaves the step as it is. */
  function Press(step: int, b: StepButton): (r: int)
    requires b in Buttons(step)
    ensures 1 <= r <= 3
    ensures b.GoTo? ==> r == b.target && (r == step + 1 || r == step - 1)
    ensures b == PlaceOrder ==> r == step == 3
  {
    match b
    case GoTo(target) => target
    case PlaceOrder => step
  }

  /** The only moves are 1 to 2, 2 to 1, 2 to 3 and 3 to 2. */
  lemma Moves(from: int, to: int)
    ensures GoTo(to) in Buttons(from) <==>
      (from == 1 && to == 2) || (from == 2 && to == 1) || (from == 2 && to == 3) || (from == 3 && to == 2)
  {
  }

  /** "Place Order" is shown at the review step and nowhere else. */
  lemma PlaceOrderOnlyAtReview(step: int)
    ensures PlaceOrder in Buttons(step) <==> step == 3
  {
  }

  /** A sequence of presses, each on a button the current step shows. */
  predicate Pressable(step: int, presses: seq<StepButton>)
    decreases |presses|
  {
    |presses| == 0 || (presses[0] in Buttons(step) && Pressable(Press(step, presses[0]), presses[1..]))
  }

  /** The step after a sequence of shown-button presses. */
  function Run(step: int, presses: seq<StepButton>): int
    requires Pressable(step, presses)
    decreases |presses|
  {
    if |presses| == 0 then step else Run(Press(step, presses[0]), presses[1..])
  }

  /** Starting from the first step, every reachable step is 1, 2 or 3, and
      the only way to submit is from step 3. */
  lemma {:induction false} StepsStayInRange(step: int, presses: seq<StepButton>)
    requires 1 <= step <= 3 && Pressable(step, presses)
    ensures 1 <= Run(step, presses) <= 3
    ensures forall i :: 0 <= i < |presses| && presses[i] == PlaceOrder ==>
      Pressable(step, presses[..i]) && Run(step, presses[..i]) == 3
    decreases |presses|
  {
    if |presses| > 0 {
      var next := Press(step, presses[0]);
      StepsStayInRange(next, presses[1..]);
      forall i | 0 <= i < |presses| && presses[i] == PlaceOrder
        ensures Pressable(step, presses[..i]) && Run(step, presses[..i]) == 3
      {
        PressablePrefix(step, presses, i);
        if i == 0 {
          assert presses[..0] == [];
        } else {
          assert presses[..i][0] == presses[0] && presses[..i][1..] == presses[1..][..i - 1];
          assert presses[1..][i - 1] == PlaceOrder;
        }
      }
    }
  }

  /** From any step but review, a press sequence that reaches the review
      step contains "Review Order". */
  lemma {:induction false} ReachingReviewPassesThree(step: int, presses: seq<StepButton>)
    requires Pressable(step, presses) && step != 3 && Run(step, presses) == 3
    ensures GoTo(3) in presses
    decreases |presses|
  {
    var next := Press(step, presses[0]);
    if presses[0] != GoTo(3) {
      assert next != 3;
      ReachingReviewPassesThree(next, presses[1..]);
      assert presses == [presses[0]] + presses[1..];
    }
  }

  /** Starting from the first step, every "Place Order" press comes after
      "Continue to Payment" as the very first press and after a later
      "Review Order". */
  lemma PlaceOrderNeedsReview(presses: seq<StepButton>)
    requires Pressable(FirstStep, presses)
    ensures forall i :: 0 <= i < |presses| && presses[i] == PlaceOrder ==>
      2 <= i && presses[0] == GoTo(2) && GoTo(3) in presses[..i]
  {
    StepsStayInRange(FirstStep, presses);
    forall i | 0 <= i < |presses| && presses[i] == PlaceOrder
      ensures 2 <= i && presses[0] == GoTo(2) && GoTo(3) in presses[..i]
    {
      ReachingReviewPassesThree(FirstStep, presses[..i]);
      assert presses[0] == presses[..i][0];
    }
  }

  /** A prefix of a pressable sequence is pressable. */
  lemma {:induction false} PressablePrefix(step: int, presses: seq<StepButton>, i: int)
    requires Pressable(step, presses) && 0 <= i <= |presses|
    ensures Pressable(step, presses[..i])
    decreases |presses|
  {
    if i > 0 {
      PressablePrefix(Press(step, presses[0]), presses[1..], i - 1);
      assert presses[..i][0] == presses[0] && presses[..i][1..] == presses[1..][..i - 1];
    }
  }
}

=== FILE: order_routes.dfy ===
/** The server's order log (`server/routes/orders.js`): an append-only list
    of orders with a sequential id counter starting at 1, the create route
    that validates and stores an order, and the two read routes. */
module OrderRoutes {
  import opened Base
  import opened Cart
  import opened Api

  /** Seven days in milliseconds: the delivery estimate's offset. */
  const WeekMillis: int := 7 * 24 * 60 * 60 * 1000

  /** The status every stored order carries. */
  const Confirmed: string := "confirmed"

  /** A stored order. Timestamps are milliseconds since the epoch. */
  datatype Order = Order(
    id: int,
    items: seq<CartLine>,
    shippingInfo: ShippingInfo,
    paymentInfo: PaymentInfo,
    total: int,
    status: string,
    orderDate: int,
    estimatedDelivery: int)

  /** The module's state: the order list and the next id to hand out. */
  datatype OrderStore = OrderStore(orders: seq<Order>, orderIdCounter: int)

  /** The state when the server starts. */
  const InitialStore: OrderStore := OrderStore([], 1)

  /** The log's invariant: the ids are 1, 2, ..., n in order and the counter
      is n + 1. */
  predicate WellFormed(store: OrderStore) {
    && store.orderIdCounter == |store.orders| + 1
    && forall i :: 0 <= i < |store.orders| ==> store.orders[i].id == i + 1
  }

  /** The request carries at least one item. */
  predicate HasItems(body: OrderPayload) {
    body.items.Some? && |body.items.value| > 0
  }

  /** The state after a route and its reply. */
  datatype Posted = Posted(store: OrderStore, reply: Reply<Order>)

  /** `POST /`. A request with missing or empty `items` gets a 400 and
      changes nothing. Otherwise the order takes the current counter as its
      id, copies the request's fields unchanged, is `confirmed`, is dated
      `now` with delivery a week after the second clock read `later`, is
      appended to the log, and the counter moves on by one; the reply is a
      201 with the order. */
  function CreateOrder(store: OrderStore, body: OrderPayload, now: int, later: int): (r: Posted)
    ensures !HasItems(body) ==> r == Posted(store, Fail(400, "Order must contain at least one item"))
    ensures HasItems(body) ==>
      && r.reply.Ok? && r.reply.status == 201
      && r.store == OrderStore(store.orders + [r.reply.value], store.orderIdCounter + 1)
      && r.reply.value.id == store.orderIdCounter
      && r.reply.value.status == Confirmed
      && r.reply.value.items == body.items.value
      && r.reply.value.shippingInfo == body.shippingInfo
      && r.reply.value.paymentInfo == body.paymentInfo
      && r.reply.value.total == body.total
      && r.reply.value.orderDate == now
      && r.reply.value.estimatedDelivery == later + WeekMillis
      && (now <= later ==> r.reply.value.estimatedDelivery >= r.reply.value.orderDate + WeekMillis)
  {
    if body.items.None? || |body.items.value| == 0 then
      Posted(store, Fail(400, "Order must contain at least one item"))
    else
      var order := Order(store.orderIdCounter, body.items.value, body.shippingInfo, body.paymentInfo,
                         body.total, Confirmed, now, later + WeekMillis);
      Posted(OrderStore(store.orders + [order], store.orderIdCounter + 1), Ok(201, order))
  }

  function OrderHasId(id: int): Order -> bool {
    (o: Order) => o.id == id
  }

  /** `GET /:id`: the first order with that id, or a 404 with message
      "Order not found" when none has it or the id does not parse. */
  function GetOrder(store: OrderStore, id: Option<int>): (r: Reply<Order>)
    ensures r.Ok? <==> id.Some? && exists i :: 0 <= i < |store.orders| && store.orders[i].id == id.value
    ensures r.Ok? ==> r.status == 200 && exists i :: (0 <= i < |store.orders| && store.orders[i] == r.value
      && r.value.id == id.value && forall j :: 0 <= j < i ==> store.orders[j].id != id.value)
    ensures r.Fail? ==> r == Fail(404, "Order not found")
  {
    if id.None? then Fail(404, "Order not found")
    else
      var k := FirstIndex(store.orders, OrderHasId(id.value));
      if k < 0 then Fail(404, "Order not found") else Ok(200, store.orders[k])
  }

  /** `GET /`: the whole log, in the order the orders were accepted. */
  function ListOrders(store: OrderStore): (r: Reply<seq<Order>>)
    ensures r.Ok? && r.status == 200
    ensures r.value == store.orders
  {
    Ok(200, store.orders)
  }

  /** The server starts well-formed with nothing to list, and the first
      accepted order gets id 1. */
  lemma FirstOrderIsOne(body: OrderPayload, now: int, later: int)
    requires HasItems(body)
    ensures WellFormed(InitialStore) && ListOrders(InitialStore).value == []
    ensures CreateOrder(InitialStore, body, now, later).reply.value.id == 1
  {
  }

  /** Every create, accepted or rejected, keeps the log well-formed. */
  lemma CreatePreservesWellFormed(store: OrderStore, body: OrderPayload, now: int, later: int)
    requires WellFormed(store)
    ensures WellFormed(CreateOrder(store, body, now, later).store)
  {
  }

  /** In a well-formed log the id `k` resolves exactly when `1 <= k <= n`,
      to the `k`-th order. */
  lemma StoredIdsResolve(store: OrderStore, k: int)
    requires WellFormed(store)
    ensures GetOrder(store, Some(k)).Ok? <==> 1 <= k <= |store.orders|
    ensures 1 <= k <= |store.orders| ==> GetOrder(store, Some(k)) == Ok(200, store.orders[k - 1])
  {
    if 1 <= k <= |store.orders| {
      assert store.orders[k - 1].id == k;
    }
  }

  /** After an accepted create, reading back the id it returned yields the
      stored order. */
  lemma GetAfterCreate(store: OrderStore, body: OrderPayload, now: int, later: int)
    requires WellFormed(store) && HasItems(body)
    ensures var posted := CreateOrder(store, body, now, later);
      GetOrder(posted.store, Some(posted.reply.value.id)) == Ok(200, posted.reply.value)
  {
    var posted := CreateOrder(store, body, now, later);
    CreatePreservesWellFormed(store, body, now, later);
    StoredIdsResolve(posted.store, posted.reply.value.id);
  }

  /** The log only grows at its end: after a create, the listing is the old
      listing plus the accepted order, or unchanged when rejected. */
  lemma ListAfterCreate(store: OrderStore, body: OrderPayload, now: int, later: int)
    ensures var posted := CreateOrder(store, body, now, later);
      ListOrders(posted.store).value
        == ListOrders(store).value + (if HasItems(body) then [posted.reply.value] else [])
  {
  }
}

=== FILE: product_routes.dfy ===
/** The server's product routes (`server/routes/products.js`): the filtered,
    sorted listing, the lookup by id, the distinct categories and the
    featured products, all over the catalogue the server loads at start-up. */
module ProductRoutes {
  import opened Base
  import opened Catalog
  import opened Api

  /** The query string of `GET /api/products`. A parameter that is absent is
      `None`; the two price parameters arrive as read by `parseFloat`
      (`NoBound` when absent or empty). */
  datatype ProductQuery = ProductQuery(
    category: Option<string>,
    subcategory: Option<string>,
    minPrice: Bound,
    maxPrice: Bound,
    size: Option<string>,
    color: Option<string>,
    sort: Option<string>,
    search: Option<string>)

  /** A query parameter is truthy: present and not the empty string. */
  predicate Given(o: Option<string>) {
    o.Some? && o.value != ""
  }

  /** The parameter's text, the empty string when absent. */
  function TextOf(o: Option<string>): string {
    if o.Some? then o.value else ""
  }

  /** The reference definition of the route's filter: a product passes when
      it meets every supplied parameter. */
  predicate QueryAllows(p: Product, q: ProductQuery, loc: Locale) {
    && (Given(q.category) ==> p.category == q.category.value)
    && (Given(q.subcategory) ==> p.subcategory == q.subcategory.value)
    && (q.minPrice != NoBound ==> q.minPrice.Num? && p.price as real >= q.minPrice.value)
    && (q.maxPrice != NoBound ==> q.maxPrice.Num? && p.price as real <= q.maxPrice.value)
    && (Given(q.size) ==> q.size.value in p.sizes)
    && (Given(q.color) ==> q.color.value in p.colors)
    && (Given(q.search) ==>
          Mentions(p.name, q.search.value, loc) || Mentions(p.description, q.search.value, loc))
  }

  function AllowsFn(q: ProductQuery, loc: Locale): Product -> bool {
    p => QueryAllows(p, q, loc)
  }

  /** The route's filter stages, switched on by the truthy parameters, in the
      route's order. */
  function QueryStages(q: ProductQuery): seq<Constraint> {
    Then(Given(q.category), InCategory(TextOf(q.category)),
    Then(Given(q.subcategory), InSubcategory(TextOf(q.subcategory)),
    Then(q.minPrice != NoBound, PriceAtLeast(q.minPrice),
    Then(q.maxPrice != NoBound, PriceAtMost(q.maxPrice),
    Then(Given(q.size), HasSize(TextOf(q.size)),
    Then(Given(q.color), HasColor(TextOf(q.color)),
    Then(Given(q.search), MentionedBy(TextOf(q.search)), [])))))))
  }

  /** The filter record a client would hold for the same request. */
  function QueryAsFilters(q: ProductQuery): Filters {
    Filters(TextOf(q.category), TextOf(q.subcategory), q.minPrice, q.maxPrice,
            TextOf(q.size), TextOf(q.color), TextOf(q.search))
  }

  /** The sort key a client would hold for the same request. */
  function SortParam(q: ProductQuery): string {
    TextOf(q.sort)
  }

  /** The route's stages are the client's stages for the matching filter
      record, and its filter is the client's. */
  lemma QueryIsFilterRecord(q: ProductQuery, loc: Locale)
    ensures QueryStages(q) == Stages(QueryAsFilters(q))
    ensures forall p :: QueryAllows(p, q, loc) <==> MatchesFilters(p, QueryAsFilters(q), loc)
  {
  }

  /** `GET /`: the catalogue filtered by every supplied parameter, then
      sorted when `sort` names a key. The result holds exactly the allowed
      products, each as often as in the catalogue; an unrecognised or
      missing sort leaves catalogue order; `price-asc` gives non-decreasing
      prices. */
  function ListProducts(catalog: seq<Product>, q: ProductQuery, loc: Locale): (r: seq<Product>)
    requires ValidLocale(loc)
    ensures multiset(r) == multiset(Keep(catalog, AllowsFn(q, loc)))
    ensures forall i :: 0 <= i < |r| ==> r[i] in catalog && QueryAllows(r[i], q, loc)
    ensures forall i :: 0 <= i < |catalog| && QueryAllows(catalog[i], q, loc) ==> catalog[i] in r
    ensures ParseSort(SortParam(q)).None? ==> r == Keep(catalog, AllowsFn(q, loc))
    ensures q.sort == Some("price-asc") ==> forall i, j :: 0 <= i < j < |r| ==> r[i].price <= r[j].price
  {
    QueryIsFilterRecord(q, loc);
    KeepSame(catalog, AllowsFn(q, loc), MatchesFn(QueryAsFilters(q), loc));
    PipelineIsSelection(catalog, QueryAsFilters(q), loc);
    var filtered := Narrow(catalog, QueryStages(q), loc);
    var r := if Given(q.sort) then SortProducts(filtered, q.sort.value, loc) else filtered;
    SelectionMembers(catalog, r, QueryAsFilters(q), loc);
    r
  }

  /** The server and the client agree: for the same filters and sort key the
      route returns exactly the client's visible list. */
  lemma ServerMatchesClient(catalog: seq<Product>, q: ProductQuery, loc: Locale)
    requires ValidLocale(loc)
    ensures ListProducts(catalog, q, loc) == ApplyFiltersAndSort(catalog, QueryAsFilters(q), SortParam(q), loc)
  {
    QueryIsFilterRecord(q, loc);
    assert !Given(q.sort) ==> ParseSort(SortParam(q)).None?;
  }

  /** `GET /:id`: the first product with that id, or a 404 with message
      "Product not found" when none has it or the id does not parse. */
  function GetProduct(catalog: seq<Product>, id: Option<int>): (r: Reply<Product>)
    ensures r.Ok? <==> id.Some? && exists i :: 0 <= i < |catalog| && catalog[i].id == id.value
    ensures r.Ok? ==> r.status == 200 && exists i :: (0 <= i < |catalog| && catalog[i] == r.value
      && r.value.id == id.value && forall j :: 0 <= j < i ==> catalog[j].id != id.value)
    ensures r.Fail? ==> r == Fail(404, "Product not found")
  {
    match FindProduct(catalog, id)
    case None => Fail(404, "Product not found")
    case Some(p) => Ok(200, p)
  }

  /** The route and `getProductById` find the same product, whatever
      filters and sort key the client holds. */
  lemma LookupsAgree(catalog: seq<Product>, st: CatalogState, id: Option<int>)
    requires st.products == catalog
    ensures GetProduct(catalog, id).Ok? <==> GetProductById(st, id).Some?
    ensures GetProduct(catalog, id).Ok? ==> GetProduct(catalog, id).value == GetProductById(st, id).value
  {
  }

  /** The index of the first product in category `c`, or `|catalog|`. */
  function FirstInCategory(catalog: seq<Product>, c: string): (k: nat)
    ensures k <= |catalog|
    ensures k < |catalog| ==> catalog[k].category == c
    ensures forall j :: 0 <= j < k ==> catalog[j].category != c
  {
    if |catalog| == 0 then 0
    else if catalog[0].category == c then 0
    else 1 + FirstInCategory(catalog[1..], c)
  }

  /** `GET /meta/categories`: a 200 reply with every category of the
      catalogue exactly once, in the order of its first occurrence, and
      nothing else. */
  method Categories(catalog: seq<Product>) returns (r: Reply<seq<string>>)
    ensures r.Ok? && r.status == 200
    ensures forall c :: c in r.value <==> exists i :: 0 <= i < |catalog| && catalog[i].category == c
    ensures forall i, j :: 0 <= i < j < |r.value| ==> r.value[i] != r.value[j]
    ensures forall i, j :: 0 <= i < j < |r.value| ==>
      FirstInCategory(catalog, r.value[i]) < FirstInCategory(catalog, r.value[j])
  {
    var cats: seq<string> := [];
    for n := 0 to |catalog|
      invariant forall c :: c in cats <==> exists i :: 0 <= i < n && catalog[i].category == c
      invariant forall i, j :: 0 <= i < j < |cats| ==> cats[i] != cats[j]
      invariant forall i :: 0 <= i < |cats| ==> FirstInCategory(catalog, cats[i]) < n
      invariant forall i, j :: 0 <= i < j < |cats| ==> FirstInCategory(catalog, cats[i]) < FirstInCategory(catalog, cats[j])
    {
      var c := catalog[n].category;
      if c !in cats {
        assert FirstInCategory(catalog, c) == n;
        var next := cats + [c];
        assert next[..|cats|] == cats && next[|cats|] == c;
        cats := next;
      }
    }
    r := Ok(200, cats);
  }

  /** `GET /meta/featured`: exactly the featured products, in catalogue
      order, as `getFeaturedProducts` returns them. */
  function FeaturedRoute(catalog: seq<Product>): (r: Reply<seq<Product>>)
    ensures r.Ok? && r.status == 200
    ensures forall i :: 0 <= i < |r.value| ==> r.value[i].featured && r.value[i] in catalog
    ensures forall i :: 0 <= i < |catalog| && catalog[i].featured ==> catalog[i] in r.value
  {
    Ok(200, FeaturedProducts(catalog))
  }

  /** The route replies with `getFeaturedProducts`' list, which is taken in
      catalogue order: it distributes over concatenation and keeps a single
      product exactly when it is featured. */
  lemma FeaturedRouteAgrees(a: seq<Product>, b: seq<Product>, p: Product)
    ensures FeaturedRoute(a).value == FeaturedProducts(a)
    ensures FeaturedRoute(a + b).value == FeaturedRoute(a).value + FeaturedRoute(b).value
    ensures FeaturedRoute([p]).value == if p.featured then [p] else []
  {
    FeaturedInCatalogueOrder(a, b, p);
  }
}

=== FILE: sorting.dfy ===
/** The stable sort behind `Array.prototype.sort(compare)`.

    A comparator `compare(a, b)` returning a number is represented by the
    relation `le(a, b)` ("`compare(a, b) <= 0`": `a` may come before `b`).
    ECMAScript requires the sort to be stable, and only promises a sorted
    result when the comparator is consistent, i.e. when `le` is a total
    preorder. Under that assumption a sorted, stable permutation is unique
    (`StableSortIsUnique`), so the insertion sort below stands for whatever
    algorithm the engine uses. */
module Sorting {
  import opened Base

  /** `a` and `b` compare one way or the other. */
  predicate Comparable<T>(le: (T, T) -> bool, a: T, b: T) {
    le(a, b) || le(b, a)
  }

  /** `a <= b <= c` implies `a <= c`. */
  predicate Chains<T>(le: (T, T) -> bool, a: T, b: T, c: T) {
    le(a, b) && le(b, c) ==> le(a, c)
  }

  /** `le` is total (any two elements compare) and transitive. The
      quantifiers fire only on `Comparable` and `Chains`, which proofs
      mention for the instances they need. */
  ghost predicate TotalPreorder<T(!new)>(le: (T, T) -> bool) {
    && (forall a, b {:trigger Comparable(le, a, b)} :: Comparable(le, a, b))
    && (forall a, b, c {:trigger Chains(le, a, b, c)} :: Chains(le, a, b, c))
  }

  /** Every element may come before every later one. */
  predicate Sorted<T>(s: seq<T>, le: (T, T) -> bool) {
    forall i, j :: 0 <= i < j < |s| ==> le(s[i], s[j])
  }

  /** `a` and `b` compare equal: the comparator returns 0 for them. */
  predicate Tied<T>(le: (T, T) -> bool, a: T, b: T) {
    le(a, b) && le(b, a)
  }

  function TiedWith<T>(le: (T, T) -> bool, k: T): T -> bool {
    x => Tied(le, x, k)
  }

  /** The elements of `s` that compare equal to `k`, in their order in `s`. */
  function Ties<T>(s: seq<T>, le: (T, T) -> bool, k: T): seq<T> {
    Keep(s, TiedWith(le, k))
  }

  /** `r` keeps every group of equal-comparing elements of `s` in the order
      they had in `s`. */
  ghost predicate Stable<T(!new)>(r: seq<T>, s: seq<T>, le: (T, T) -> bool) {
    forall k :: Ties(r, le, k) == Ties(s, le, k)
  }

  /** Inserts `x` in front of the first element it may precede. */
  function Insert<T>(x: T, t: seq<T>, le: (T, T) -> bool): seq<T> {
    if |t| == 0 then [x]
    else if le(x, t[0]) then [x] + t
    else [t[0]] + Insert(x, t[1..], le)
  }

  /** Stable insertion sort: a sorted permutation of `s` that keeps equal
      elements in their original order. */
  function Sort<T(!new)>(s: seq<T>, le: (T, T) -> bool): (r: seq<T>)
    requires TotalPreorder(le)
    ensures multiset(r) == multiset(s)
    ensures Sorted(r, le)
    ensures Stable(r, s, le)
  {
    if |s| == 0 then []
    else
      var t := Sort(s[1..], le);
      InsertPermutes(s[0], t, le);
      InsertSorted(s[0], t, le);
      InsertStable(s[0], t, s[1..], le);
      assert s == [s[0]] + s[1..];
      Insert(s[0], t, le)
  }

  lemma {:induction false} InsertPermutes<T>(x: T, t: seq<T>, le: (T, T) -> bool)
    ensures multiset(Insert(x, t, le)) == multiset{x} + multiset(t)
  {
    if |t| > 0 && !le(x, t[0]) {
      InsertPermutes(x, t[1..], le);
      assert t == [t[0]] + t[1..];
    }
  }

  lemma {:induction false} InsertSorted<T(!new)>(x: T, t: seq<T>, le: (T, T) -> bool)
    requires TotalPreorder(le)
    requires Sorted(t, le)
    ensures Sorted(Insert(x, t, le), le)
  {
    if |t| > 0 && le(x, t[0]) {
      forall j | 0 <= j < |t| ensures le(x, t[j]) {
        if j > 0 { assert Chains(le, x, t[0], t[j]); }
      }
    } else if |t| > 0 {
      InsertSorted(x, t[1..], le);
      InsertBehindHead(x, t, le);
    }
  }

  /** When `x` goes after the head of `t`, the head still leads a sorted
      list, given that the insertion into the tail is sorted. */
  lemma InsertBehindHead<T(!new)>(x: T, t: seq<T>, le: (T, T) -> bool)
    requires TotalPreorder(le)
    requires Sorted(t, le) && |t| > 0 && !le(x, t[0])
    requires Sorted(Insert(x, t[1..], le), le)
    ensures Sorted([t[0]] + Insert(x, t[1..], le), le)
  {
    var rest := Insert(x, t[1..], le);
    InsertPermutes(x, t[1..], le);
    assert le(t[0], x) by { assert Comparable(le, x, t[0]); }
    forall j | 0 <= j < |rest| ensures le(t[0], rest[j]) {
      assert rest[j] in multiset(rest);
      if rest[j] != x {
        assert rest[j] in t[1..];
        var m :| 0 <= m < |t[1..]| && t[1..][m] == rest[j];
        assert t[m + 1] == rest[j];
      }
    }
    var r := [t[0]] + rest;
    forall i, j | 0 <= i < j < |r| ensures le(r[i], r[j]) {
      if i == 0 {
        assert r[j] == rest[j - 1];
      } else {
        assert r[i] == rest[i - 1] && r[j] == rest[j - 1];
      }
    }
  }

  /** Inserting `x` into `t` places it after every element that ties with
      it, so each group of ties reads as in `[x] + t`. */
  lemma {:induction false} InsertTies<T(!new)>(x: T, t: seq<T>, le: (T, T) -> bool, k: T)
    requires TotalPreorder(le)
    ensures Ties(Insert(x, t, le), le, k) == Ties([x] + t, le, k)
  {
    if |t| > 0 && !le(x, t[0]) {
      var p := TiedWith(le, k);
      var rest := Insert(x, t[1..], le);
      var hx := if p(x) then [x] else [];
      var ht := if p(t[0]) then [t[0]] else [];
      assert !(p(x) && p(t[0])) by {
        assert Chains(le, x, k, t[0]);
      }
      calc {
        Keep(Insert(x, t, le), p);
        Keep([t[0]] + rest, p);
        { KeepCons(t[0], rest, p); }
        ht + Keep(rest, p);
        { InsertTies(x, t[1..], le, k); }
        ht + Keep([x] + t[1..], p);
        { KeepCons(x, t[1..], p); }
        ht + (hx + Keep(t[1..], p));
        { if p(x) { assert ht == []; } else { assert hx == []; } }
        hx + (ht + Keep(t[1..], p));
        { KeepCons(t[0], t[1..], p); assert [t[0]] + t[1..] == t; }
        hx + Keep(t, p);
        { KeepCons(x, t, p); }
        Keep([x] + t, p);
      }
    } else {
      assert Insert(x, t, le) == [x] + t;
    }
  }

  lemma InsertStable<T(!new)>(x: T, t: seq<T>, s: seq<T>, le: (T, T) -> bool)
    requires TotalPreorder(le)
    requires Stable(t, s, le)
    ensures Stable(Insert(x, t, le), [x] + s, le)
  {
    forall k ensures Ties(Insert(x, t, le), le, k) == Ties([x] + s, le, k) {
      InsertTies(x, t, le, k);
      assert Ties(t, le, k) == Ties(s, le, k);
      KeepCons(x, t, TiedWith(le, k));
      KeepCons(x, s, TiedWith(le, k));
    }
  }

  /** Two sorted arrangements of the same elements that keep every group of
      ties in the same order are identical: the stable sort is unique. */
  lemma {:induction false} StableSortIsUnique<T(!new)>(a: seq<T>, b: seq<T>, le: (T, T) -> bool)
    requires TotalPreorder(le)
    requires multiset(a) == multiset(b)
    requires Sorted(a, le) && Sorted(b, le)
    requires Stable(a, b, le)
    ensures a == b
    decreases |a|
  {
    assert |a| == |multiset(a)| == |multiset(b)| == |b|;
    if |a| > 0 {
      SameFirst(a, b, le);
      forall k ensures Ties(a[1..], le, k) == Ties(b[1..], le, k) {
        var q := TiedWith(le, k);
        var h := if q(a[0]) then [a[0]] else [];
        assert a == [a[0]] + a[1..] && b == [b[0]] + b[1..];
        KeepCons(a[0], a[1..], q);
        KeepCons(b[0], b[1..], q);
        assert Ties(a, le, k) == Ties(b, le, k);
        assert h + Ties(a[1..], le, k) == h + Ties(b[1..], le, k);
        assert Ties(a[1..], le, k) == (h + Ties(a[1..], le, k))[|h|..];
        assert Ties(b[1..], le, k) == (h + Ties(b[1..], le, k))[|h|..];
      }
      TailMultiset(a);
      TailMultiset(b);
      StableSortIsUnique(a[1..], b[1..], le);
    }
  }

  lemma TailMultiset<T>(a: seq<T>)
    requires |a| > 0
    ensures multiset(a[1..]) == multiset(a) - multiset{a[0]}
  {
    assert a == [a[0]] + a[1..];
  }

  /** The first elements of two sorted, stable arrangements of the same
      elements coincide. */
  lemma SameFirst<T(!new)>(a: seq<T>, b: seq<T>, le: (T, T) -> bool)
    requires TotalPreorder(le)
    requires |a| > 0 && multiset(a) == multiset(b)
    requires Sorted(a, le) && Sorted(b, le)
    requires Stable(a, b, le)
    ensures |b| > 0 && a[0] == b[0]
  {
    assert a[0] in multiset(b) && a[0] in b;
    var i :| 0 <= i < |b| && b[i] == a[0];
    assert b[0] in multiset(a);
    var j :| 0 <= j < |a| && a[j] == b[0];
    assert Comparable(le, a[0], a[0]);
    assert le(b[0], a[0]) by { if i > 0 { assert le(b[0], b[i]); } }
    assert le(a[0], b[0]) by { if j > 0 { assert le(a[0], a[j]); } }
    var p := TiedWith(le, a[0]);
    assert p(a[0]) && p(b[0]);
    var ta := Ties(a, le, a[0]);
    var tb := Ties(b, le, a[0]);
    assert ta == [a[0]] + Keep(a[1..], p);
    assert tb == [b[0]] + Keep(b[1..], p);
    assert ta == tb;
    assert a[0] == ta[0] == tb[0] == b[0];
  }

  /** Any sorted, stable permutation of `s` is what `Sort` returns. */
  lemma SortIsTheStableSort<T(!new)>(s: seq<T>, r: seq<T>, le: (T, T) -> bool)
    requires TotalPreorder(le)
    requires multiset(r) == multiset(s) && Sorted(r, le) && Stable(r, s, le)
    ensures r == Sort(s, le)
  {
    StableSortIsUnique(r, Sort(s, le), le);
  }

  /** Sorting an already sorted sequence changes nothing, so sorting twice by
      the same key gives the same order as sorting once. */
  lemma SortIdempotent<T(!new)>(s: seq<T>, le: (T, T) -> bool)
    requires TotalPreorder(le)
    ensures Sorted(s, le) ==> Sort(s, le) == s
    ensures Sort(Sort(s, le), le) == Sort(s, le)
  {
    if Sorted(s, le) {
      SortIsTheStableSort(s, s, le);
    }
    SortIsTheStableSort(Sort(s, le), Sort(s, le), le);
  }
}

=== FILE: storefront.dfy ===
/** The checkout round trip across client and server: the page builds the
    order request from the cart, the order route stores it, the page reacts
    to the reply, and the confirmation page reads the order back. */
module Storefront {
  import opened Base
  import opened Cart
  import opened Api
  import opened OrderRoutes
  import opened Checkout

  /** How the page sees the order route's reply: the status, and the `id`
      of the order in the body (0 stands for the absent `id` of an error
      body, which the page never reads). */
  function AsOutcome(reply: Reply<Order>): SubmitOutcome {
    match reply
    case Ok(status, order) => Responded(status, order.id)
    case Fail(status, _) => Responded(status, 0)
  }

  /** The server's log and the page's result after one submission. */
  datatype CheckoutRun = CheckoutRun(store: OrderStore, result: SubmitResult)

  /** One press of "Place Order" that reaches the server: `now` and `later`
      are the server's two clock reads. */
  function SubmitOrder(store: OrderStore, cart: seq<CartLine>, form: CheckoutForm,
                       now: int, later: int): (run: CheckoutRun)
    ensures run.result.cart == [] || run.result.cart == cart
  {
    var posted := CreateOrder(store, BuildPayload(cart, form), now, later);
    CheckoutRun(posted.store, HandleOutcome(cart, AsOutcome(posted.reply)))
  }

  /** Checking out a non-empty cart stores the cart's lines and total under
      the next id, with the shipping fields and only the last four UTF-16 code
      units of the card number; the cart is cleared, the page moves to that id, and the
      confirmation page finds the order there. */
  lemma CheckoutRoundTrip(store: OrderStore, cart: seq<CartLine>, form: CheckoutForm,
                          now: int, later: int)
    requires WellFormed(store) && |cart| > 0
    ensures var run := SubmitOrder(store, cart, form, now, later);
      && WellFormed(run.store)
      && run.result.cart == []
      && run.result.confirmation == Some(|store.orders| + 1)
      && var reply := GetOrder(run.store, run.result.confirmation);
         && reply.Ok?
         && reply.value.id == |store.orders| + 1
         && reply.value.items == cart
         && reply.value.total == Total(cart)
         && reply.value.status == Confirmed
         && reply.value.shippingInfo == ShippingOf(form)
         && reply.value.paymentInfo == PaymentInfo(CardLast4(form.cardNumber))
  {
    var body := BuildPayload(cart, form);
    var posted := CreateOrder(store, body, now, later);
    assert HasItems(body);
    GetAfterCreate(store, body, now, later);
    CreatePreservesWellFormed(store, body, now, later);
  }

  /** The server's guard against an order without items: whatever client
      posts an empty cart, the server refuses it and stores nothing, and a
      page handling that reply keeps its cart and stays. (The checkout page
      itself renders nothing for an empty cart, so it never posts one.) */
  lemma EmptyCartIsRefused(store: OrderStore, form: CheckoutForm, now: int, later: int)
    ensures SubmitOrder(store, [], form, now, later) == CheckoutRun(store, SubmitResult([], None))
  {
  }
}
